=== FILE: README.md ===
# awesome-python3-webapp core, modelled in Dafny

This project models the three core files of a small asyncio blog engine:

- `www/orm.py` is the ORM. It builds field metadata, and a metaclass derives a table's canned SELECT/INSERT/UPDATE/DELETE statements. Its model methods are `find`, `findAll`, `findNumber`, `save`, `update` and `remove`. It also holds the two data-access functions `select` and `execute`.
- `www/coroweb.py` is the web layer. It holds the `@get`/`@post` decorators, the signature inspection that decides which keyword arguments a handler takes, `add_route`, and `RequestHandler.__call__`. That method assembles a handler's arguments from the request body, the query string and the path variables, or answers 400.
- `www/app.py` holds the middlewares: the response middleware that turns a handler's return value into an HTTP response, the `/manage/` admin gate, `data_factory`, and the `datetime` template filter.

Everything is pure functions over immutable datatypes, plus one method: the metaclass scan `OrmSchema.DefineModel` is a loop.

Some things are inputs rather than computed:
- The database driver: the rows it returns, its row count, and whether `begin`, `commit` or `rollback` fail.
- The decoded request body and the `parse_qs` result.
- `cookie2user`, taken as a function parameter.
- The wall clock.

Python's `bool` is an `int`, and the model keeps that wherever the source tests `isinstance(x, int)`. The request's content type is a string, and the model takes a request without one to carry the empty string; that is the falsy case `RequestHandler.__call__` rejects.

Files:
- `wrappers.dfy`: `Option` and `Result`.
- `strings.dfy`: `str.join`, `startswith`, `count`, ASCII `lower` and `str(int)`, with their lemmas.
- `values.dfy`: Python values, responses, requests and users.
- `db.dfy`: `select` and `execute`.
- `orm_schema.dfy`: fields, the metaclass and the SQL builders.
- `orm_model.dfy`: the `Model` methods.
- `coroweb.dfy`: the web layer.
- `app.dfy`: the middlewares and `datetime_filter`.

`findNumber` sends `select <expr> __num__ from ...` and reads the `__num__` column of the first row.

## Model

| member | source | states |
|---|---|---|
| Strings.Lower | www/coroweb.py:123 | `content_type.lower()` keeps the length and lower-cases each ASCII letter in place |
| Strings.Decimal | www/app.py:167-173 | `str(n)` of a count is a non-empty digit string without a leading zero |
| Strings.DecimalRoundTrip | www/app.py:167-173 | reading back the digits `str(n)` wrote gives `n` |
| Values.AsInt | www/app.py:148 | `isinstance(v, int)` holds exactly for ints and bools; an int denotes itself, `True` is 1 and `False` is 0 |
| Db.Placeholders | www/orm.py:36 | `replace('?', '%s')` leaves no `?` and grows the text by one character per `?` |
| Db.PlaceholdersAppend | www/orm.py:36 | the rewrite works piece by piece: rewriting a concatenation is concatenating the rewrites |
| Db.PlaceholdersChar | www/orm.py:36 | one character is rewritten to `%s` if it is `?` and is kept otherwise |
| Db.PlaceholdersIdentity | www/orm.py:36 | text without `?` reaches the driver unchanged |
| Db.PlaceholdersIdempotent | www/orm.py:36 | rewriting the placeholders twice is the same as once |
| Db.Prepare | www/orm.py:36 | the cursor gets the SQL with every `?` rewritten to `%s`, which leaves no `?`, and `args or ()`: the given args, or none |
| Db.Fetch | www/orm.py:37-40 | a truthy size gives the first `min(size, n)` rows, and otherwise every row; always a prefix |
| Db.Select | www/orm.py:31-42 | sends the prepared statement; the rows are what `fetchmany(size)` or `fetchall()` give (Db.Fetch): a prefix of the driver's, at most `size`, every row without a truthy size, and empty only when the driver has none |
| Db.Execute | www/orm.py:45-60 | the connection is leased first and released last, and the statement is sent once; autocommit is exactly acquire/run/release; otherwise a failing begin is acquire/begin/release, a failing run is rolled back after it, a failing commit is rolled back after it, and a success is exactly begin/run/commit; the row count is returned iff the statement (and the commit) succeeded, and the error otherwise, replaced by a failing rollback's |
| OrmSchema.CreateArgsString | www/orm.py:63-67 | `num` question marks separated by `", "`: empty iff 0, length `3*num-2`, exactly `num` `?` |
| OrmSchema.ArgsStringShape | www/orm.py:63-67 | position `i` holds `?`, `,` or a space according to `i mod 3` |
| OrmSchema.FieldKinds | www/orm.py:81-109 | each field class fixes its column type, key flag and default as the constructors do |
| OrmSchema.TableName | www/orm.py:119 | `__table__ or name`: a missing or empty table name falls back to the class name |
| OrmSchema.FieldNames | www/orm.py:125-136 | every name collected by the scan is a mapped field |
| OrmSchema.FieldNamesMembership | www/orm.py:122-136 | a name is collected iff it is mapped with that key flag; the names are distinct; every mapping is a declared attribute |
| OrmSchema.QuoteAll | www/orm.py:143 | each field name wrapped in backquotes, in order |
| OrmSchema.SetClauses | www/orm.py:151 | one "`column`=?" per non-key field, using the column name `name or attr` |
| OrmSchema.SecondKey | www/orm.py:130-133 | a key field met while a key is already recorded is the second key of the declaration |
| OrmSchema.EntityMetaValid | www/orm.py:141-152 | metadata built from one key keeps the class invariant: the key is the unique key field, `__fields__` lists every other field once, and the statements are built from them |
| OrmSchema.DefineModel | www/orm.py:114-153 | `Model` is returned untouched; otherwise no key raises "not found", a second key raises "duplicate" naming that second key, and exactly one key yields valid metadata |
| OrmModel.GetValue | www/orm.py:170-171 | `getValue` gives back what is stored under the key, and None for an absent key |
| OrmModel.SetThenGet | www/orm.py:167-171 | a value stored by `__setattr__` reads back through `getValue`, and no other key's value changes |
| OrmModel.GetValueOrDefault | www/orm.py:173-181 | afterwards the record holds the returned value and nothing else changed; a non-None value comes back as is; a None takes the field's default, which is stored |
| OrmModel.GetValueOrDefaultIdempotent | www/orm.py:173-181 | asking a second time returns the same value and stores nothing more |
| OrmModel.ResolveAll | www/orm.py:235 | mapping `getValueOrDefault` over the keys gives each key's own answer and touches only those keys |
| OrmModel.KeyAndFields | www/orm.py:235-236 | the fields and then the key are distinct mapped attributes |
| OrmModel.SaveStatement | www/orm.py:234-237 | INSERT with every non-key field and then the key, each resolved with defaults; the returned record holds every resolved value, and present values are never overwritten |
| OrmModel.UpdateStatement | www/orm.py:242-245 | UPDATE with every non-key field and then the key, read with `getValue` |
| OrmModel.InsertSqlCount | www/orm.py:150 | the INSERT text has exactly one `?` per field plus one for the key |
| OrmModel.InsertBalanced | www/orm.py:234-237 | `save` passes exactly one argument per placeholder |
| OrmModel.UpdateSqlCount | www/orm.py:151 | the UPDATE text has one `?` per non-key field plus one for the key |
| OrmModel.UpdateBalanced | www/orm.py:242-245 | `update` passes exactly one argument per placeholder |
| OrmModel.DeleteSqlCount | www/orm.py:152 | the DELETE text has exactly one `?` |
| OrmModel.DeleteBalanced | www/orm.py:251-252 | `remove` sends the DELETE with the key value as its only argument, one per placeholder |
| OrmModel.SelectHasNoPlaceholder | www/orm.py:149 | the canned SELECT has no `?` |
| OrmModel.FindAllStatement | www/orm.py:185-207 | fails with "invalid limit" iff the limit is not None, an int or a pair; on success the SQL is the space-joined `sql` list (spelled out by FindAllText), and the caller's args come first, then nothing, the int, or both items of the pair |
| OrmModel.FindAllText | www/orm.py:187-208 | the SQL is the SELECT, then ` where W` and ` order by O` only when truthy, then ` limit ?` or ` limit ?, ?` |
| OrmModel.LimitCount | www/orm.py:199-205 | the limit clause has one `?` per argument it appends |
| OrmModel.FindAllBalanced | www/orm.py:185-208 | if the caller's where/order text carries one `?` per argument, the whole statement is balanced |
| OrmModel.FindStatement | www/orm.py:228 | `find` sends the canned SELECT followed by `` where `pk`=?`` and passes just the key value |
| OrmModel.FindBalanced | www/orm.py:228 | `find`'s single `?` matches its single argument |
| OrmModel.FindNumberStatement | www/orm.py:215-219 | `select <expr> __num__ from <table>`, then ` where W` only when `where` is truthy, with the caller's args |
| OrmModel.Find | www/orm.py:226-231 | fetches at most one row: no row gives None, otherwise the first row |
| OrmModel.FindNumber | www/orm.py:213-222 | sends the prepared findNumber statement with the caller's args; no row gives None; otherwise the first row's `__num__`, or a missing-column error |
| OrmModel.FindNumberBalanced | www/orm.py:215-219 | if the `where` text carries one `?` per argument (and the expression and table none), the statement is balanced |
| OrmModel.FindAll | www/orm.py:185-209 | fails exactly when the statement does; otherwise sends the prepared findAll SQL with the extended args, and every driver row becomes a record |
| OrmModel.Save | www/orm.py:234-239 | under autocommit the trace is exactly acquire, one run of the INSERT with the resolved args, release; the outcome is the row count or the driver's error; the record keeps the defaults |
| OrmModel.Update | www/orm.py:242-247 | exactly acquire, one run of the UPDATE with the `getValue` args, release; the row count or the driver's error |
| OrmModel.Remove | www/orm.py:250-254 | exactly acquire, one run of the DELETE with the key value, release; the row count or the driver's error |
| Coroweb.NamedKwArgs | www/coroweb.py:64-70 | a name is listed iff it is a keyword-only parameter, in signature order (a subsequence of the parameter names) |
| Coroweb.RequiredKwArgs | www/coroweb.py:54-61 | a name is listed iff it is a keyword-only parameter without a default, in signature order |
| Coroweb.RequiredWithinNamed | www/coroweb.py:54-70 | the required names are the named ones thinned out, in the same order |
| Coroweb.HasNamedKwArgs | www/coroweb.py:73-77 | true iff the named list is non-empty |
| Coroweb.HasVarKwArg | www/coroweb.py:80-84 | true iff some parameter is `**kw` |
| Coroweb.ScanRequest | www/coroweb.py:87-98 | a scan that answers False was started without `request` already found (the full statement is ScanRequestSpec's) |
| Coroweb.ScanRequestSpec | www/coroweb.py:87-98 | the scan succeeds iff every parameter after `request` is `*args`, keyword-only or `**kw`, and answers whether `request` is present |
| Coroweb.HasRequestArgSpec | www/coroweb.py:87-98 | `has_request_arg` raises iff a positional parameter follows `request`; otherwise it answers whether `request` exists |
| Coroweb.Inspect | www/coroweb.py:104-111 | the handler is accepted iff `has_request_arg` does not raise; it records that answer, whether there is `**kw`, whether there are named arguments, and the named and required lists |
| Coroweb.AddRoute | www/coroweb.py:208-219 | a missing method or route tag raises; otherwise it registers under the tags iff the signature passes, and a failing signature raises `has_request_arg`'s own error |
| Coroweb.DecoratedRegisters | www/coroweb.py:17-41 | the `@get`/`@post` tags are what `add_route` reads: a decorated view with a well-placed `request` registers under its decorator's method and path |
| Coroweb.FirstValues | www/coroweb.py:153-154 | each query key maps to its first value |
| Coroweb.PathArgs | www/coroweb.py:160 | the arguments are exactly the path variables |
| Coroweb.ParseParams | www/coroweb.py:117-154 | nothing is parsed when the handler takes no keyword arguments; only a POST can fail; a POST without a content type fails with "Missing Content-Type."; a GET with a query string yields exactly the first value of each `parse_qs` key, and any other non-POST request leaves `kw` None |
| Coroweb.MergeArgs | www/coroweb.py:155-177 | without parsed parameters the path variables alone; otherwise the parameters (whitelisted to the named ones when there is no `**kw`) with the path variables winning |
| Coroweb.FirstMissing | www/coroweb.py:182-186 | None iff every required name is present; otherwise the first missing one in declaration order |
| Coroweb.Bind | www/coroweb.py:113-186 | a parse error or a missing argument answers 400 with its text; a call passes exactly the merged arguments plus the request when the handler takes it, and has every required argument |
| Coroweb.Dispatch | www/coroweb.py:113-194 | a 400 is returned as a response; a handler's `APIError` becomes `{error, data, message}`; otherwise the handler's value |
| Coroweb.RejectedNeverCalls | www/coroweb.py:117-186 | a rejected request never reaches the handler |
| Coroweb.PostRejections | www/coroweb.py:118-140 | a POST without a content type, with a non-object JSON body, or with an unsupported type gets the matching 400 |
| Coroweb.GetUsesFirstQueryValues | www/coroweb.py:141-180 | a GET with a query string passes each kept key's first value, and the handler's arguments are exactly those query values, filtered and overridden by the path variables, plus the request |
| Coroweb.NoParamsMeansPathOnly | www/coroweb.py:156-160 | with nothing parsed the arguments are the path variables (plus the request) |
| Coroweb.JsonObjectAccepted | www/coroweb.py:123-131 | a JSON object body under any letter case of `application/json` becomes the parameters |
| Coroweb.FormBodyAccepted | www/coroweb.py:133-137 | a POST whose lower-cased type starts with the url-encoded form type or `multipart/form-data` passes the form as the parameters |
| Coroweb.ExampleInspect | www/coroweb.py:104-111 | the handler `(id, *, name, request)` takes `request` and requires `name` and `request` |
| Coroweb.ExampleMerge | www/coroweb.py:164-177 | for it, `{"name", "extra"}` plus path `id` keeps `name` and `id` only |
| Coroweb.ExampleBind | www/coroweb.py:113-186 | for it, that JSON POST calls the handler with `name`, `id` and the request |
| App.StatusOf | www/app.py:148 | a status exists iff the value is an int (a bool counts) in [100, 600) |
| App.CoerceText | www/app.py:120-127 | a string is a redirect iff it starts with `redirect:`, and the location is the rest; otherwise HTML of the string |
| App.CoerceDict | www/app.py:128-146 | JSON iff `__template__` is absent or None; otherwise the template with the dict plus `__user__` as context, all else unchanged |
| App.Coerce | www/app.py:107-159 | first match wins: a response passes through, bytes are binary, strings and dicts as above, an in-range int is a status, an in-range pair is a status with text, anything else (bools and pairs included) is plain text of itself |
| App.CoerceContentType | www/app.py:115-158 | the content type the middleware sets: octet-stream, HTML, JSON, plain text, and none set by it for statuses, status texts and redirects |
| App.RedirectRoundTrip | www/app.py:122-124 | `"redirect:" + loc` always redirects to `loc` |
| App.IntStatus | www/app.py:147-149 | an int is a bare status exactly inside [100, 600), and otherwise plain text |
| App.TupleStatus | www/app.py:150-154 | a pair with an in-range int first is a status with the second item as text; out of range it is plain text |
| App.OtherTuplesAreText | www/app.py:150-159 | a tuple of another length is plain text |
| App.BoolIsText | www/app.py:148-158 | a returned `True` or `False` is an int outside [100, 600) and so is shown as plain text |
| App.UserOnlyForTemplates | www/app.py:128-146 | the signed-in user changes the response only when a template is rendered |
| App.CoerceIdempotent | www/app.py:112-114 | coercing an already coerced response changes nothing |
| App.CurrentUser | www/app.py:73-79 | no user without a non-empty cookie; a non-empty cookie gives exactly `cookie2user`'s answer |
| App.Authorize | www/app.py:80-82 | refused iff the path starts with `/manage/` and there is no user or the user is not an admin; otherwise admitted with the cookie's user |
| App.Data | www/app.py:86-98 | `__data__` is set iff a POST's content type starts with the JSON or url-encoded form type: the JSON body or the form |
| App.JsonDataAgreesWithAdapter | www/app.py:90-91 | where `data_factory` stores a JSON object, the handler adapter (coroweb.py:123-131) parses the same object as its parameters |
| App.FormDataAgreesWithAdapter | www/app.py:94-95 | where `data_factory` stores a url-encoded form, the handler adapter (coroweb.py:133-137) parses the same form as its parameters |
| App.Serve | www/app.py:70-83 | a refused request is redirected to `/signin`; an admitted one gets the coerced result of the handler adapter, with the cookie's user (None without one) as `__user__` |
| App.DeniedNeverCalls | www/app.py:80-81 | a refused admin page never reaches the handler |
| App.AdmittedReachesHandler | www/app.py:80-83 | pages outside `/manage/`, and every page for an admin, reach the handler |
| App.BadRequestPassesThrough | www/app.py:110-114 | a 400 from the handler adapter is the final response |
| App.Truncate | www/app.py:163 | `int()` truncates toward zero |
| App.Bucket | www/app.py:162-172 | under a minute, minutes, hours, days or a date, by the thresholds 60, 3600, 86400 and 604800; each count `n` satisfies `n*unit <= delta < (n+1)*unit` |
| App.BucketEarliest | www/app.py:162-172 | every bucket is reached, first of all by its earliest age |
| App.BucketMonotone | www/app.py:162-172 | a larger age never shows a smaller bucket or count |
| App.DatetimeFilter | www/app.py:162-173 | under two minutes reads "1 minute ago"; otherwise the count of the bucket followed by its unit, or the date |
| App.AgoTextDistinct | www/app.py:164-171 | the relative texts tell buckets and counts apart, except that "under a minute" reads like "1 minute" |

## Left out

- `create_pool`, the connection pool and the MySQL driver are left out because they are foreign code and network I/O. A driver's answers are inputs (`Db.Driver`, the row list).
- Logging is left out, including the warnings when `save`, `update` or `remove` affect a row count other than 1. It has no effect on the results.
- `inspect.signature` and `asyncio.coroutine` are left out because they are reflection. A handler's signature is an explicit parameter list.
- `add_routes` is left out because it is reflection: it imports a module and scans it with `dir()`.
- `add_static`, `init`, the event loop and the server socket are left out because they are I/O plumbing.
- `init_jinja2` and Jinja2 rendering are left out because they are library code. A rendered response carries the template and its context.
- `json.dumps`, `str()` of arbitrary objects and `.encode('utf-8')` are left out because they are library code. Responses carry the value to be serialised.
- `request.json()`, `request.post()` and `parse.parse_qs` are left out because they are library decoders. Their results are fields of the request.
- `cookie2user` (from `handlers`, which is not part of this model) is a function parameter.
- `time.time()` and `datetime.fromtimestamp` are left out because they are the clock and calendar arithmetic. The two timestamps and the (year, month, day) triple are parameters.
- `www/testSQL.py` is left out because it is a database script without logic of its own.
- Strings.Lower: only ASCII letters are lower-cased, because Python's full Unicode case mapping is not modelled.
- Coroweb.ScanRequest: the error text stops before the function name and signature that the source appends, since those come from reflection.
- Coroweb.AddRoute: the error text stops before the `str(fn)` suffix, for the same reason.
- Coroweb.Dispatch: handler exceptions other than `APIError` are not modelled; they propagate unchanged in the source.
- Db.Select: only successful reads are modelled. A driver error in `cur.execute` or in a fetch propagates out of `select` and so out of `find`, `findAll` and `findNumber` in the source; the driver's read answer here is always a row list.
- App.CoerceContentType: the headers aiohttp fills in by itself are not modelled. In particular, `web.Response(status=..., text=...)` for a status pair gets aiohttp's `text/plain; charset=utf-8`, while the model records only what the middleware sets.
- Coroweb.ParseParams: a form body is taken as an already-built dict, so how `dict(**params)` treats repeated form keys is not modelled.
- OrmModel.GetValue: `getattr` finds class attributes before `__getattr__` falls back to the dict. The metaclass removes only the `Field` attributes, so a field named after an attribute of `dict` or `Model` (`get`, `keys`, `update`, `save`, ...) reads as the bound method, not the stored value. The model reads only the record's own keys, which matches the source for field names that do not shadow a class attribute.
- OrmModel.GetValueOrDefault: the same `getattr` restriction applies.
- OrmModel.FindAll: the source also appends the limit values to the caller's own `args` list, mutating it. The model returns the extended list instead.
- OrmModel.FindAll: a save followed by a find returning the same record is a property of the database, not of this code, so it is not stated.
- OrmSchema.DefineModel: attribute names are assumed distinct and non-empty (the `requires`), as they always are for the keys of a class namespace. The source's truthiness tests on the key name rely on this.
- OrmSchema.DefineModel: a class whose only field is its key gets three malformed statements, and the model builds the same texts: the SELECT `select `id`,  from ...`, the INSERT column list `(, `id`)`, and the UPDATE `update ... set  where `id`=?` with an empty set list.
- OrmSchema.SetClauses: UPDATE uses each field's column name (`name or attr`) while SELECT and INSERT use the attribute name. The model follows the source in this.

=== FILE: app.dfy ===
/** The middlewares of www/app.py and the `datetime` template filter. The
    request passes logger → auth → data → response → the handler adapter; the
    logger only logs and is not modelled. `cookie2user` is a parameter, and the
    clock enters only as the two timestamps `datetime_filter` subtracts. */
module App {
  import opened Wrappers
  import opened Values
  import opened Strings
  import opened Coroweb

  // ---------------------------------------------------------------------------
  // response_factory: turning whatever the handler returned into a response

  const redirectPrefix := "redirect:"

  /** The status an `int` (or `bool`) return value asks for, when it lies in [100, 600). */
  function StatusOf(v: Value): (r: Option<int>)
    ensures r.Some? ==> 100 <= r.value < 600 && AsInt(v) == r
    ensures r.None? ==> AsInt(v).None? || !(100 <= AsInt(v).value < 600)
  {
    match AsInt(v)
    case Some(n) => if 100 <= n < 600 then Some(n) else None
    case None => None
  }

  /** The template a dict asks for: `r.get('__template__', None)`. */
  function TemplateOf(m: map<string, Value>): Value {
    if "__template__" in m then m["__template__"] else VNone
  }

  /** A returned string: a redirect when it starts with `redirect:`, HTML otherwise. */
  function CoerceText(s: string): (r: Response)
    ensures r.Redirect? <==> StartsWith(s, redirectPrefix)
    ensures r.Redirect? ==> redirectPrefix + r.location == s
    ensures !r.Redirect? ==> r == Html(s)
  {
    if StartsWith(s, redirectPrefix) then
      assert s == redirectPrefix + s[|redirectPrefix|..];
      Redirect(s[|redirectPrefix|..])
    else Html(s)
  }

  /** A returned dict: JSON without a template, otherwise the template
      rendered with the dict plus `__user__`. */
  function CoerceDict(m: map<string, Value>, user: Value): (r: Response)
    ensures r.Json? <==> TemplateOf(m) == VNone
    ensures r.Json? ==> r.payload == m
    ensures !r.Json? ==>
      && r.Rendered? && r.template == TemplateOf(m)
      && r.context.Keys == m.Keys + {"__user__"} && r.context["__user__"] == user
      && forall k :: k in m && k != "__user__" ==> r.context[k] == m[k]
  {
    var template := TemplateOf(m);
    if template == VNone then Json(m) else Rendered(template, m["__user__" := user])
  }

  /** `response_factory`, first matching case wins. `user` is `request.__user__`. */
  function Coerce(v: Value, user: Value): (r: Response)
    ensures v.VResponse? ==> r == v.response
    ensures v.VBytes? ==> r == Binary(v.bytes)
    ensures v.VStr? ==> r == CoerceText(v.s)
    ensures v.VDict? ==> r == CoerceDict(v.entries, user)
    ensures (v.VInt? || v.VBool?) ==> (r.Status? <==> StatusOf(v).Some?)
    ensures !v.VResponse? && r.Status? ==> StatusOf(v) == Some(r.code)
    ensures !v.VResponse? && r.StatusText? ==>
      v.VTuple? && |v.items| == 2 && StatusOf(v.items[0]) == Some(r.code) && r.message == v.items[1]
    ensures v.VTuple? ==> (r.StatusText? <==> |v.items| == 2 && StatusOf(v.items[0]).Some?)
    ensures !v.VResponse? && r.PlainText? ==> r.shown == v
    ensures (v.VNone? || v.VReal? || v.VList? || v.VUser? || v.VRequest? || v.VObject?) ==> r == PlainText(v)
    ensures !(v.VResponse? || v.VBytes? || v.VStr? || v.VDict?) && !r.Status? && !r.StatusText? ==> r == PlainText(v)
  {
    match v
    case VResponse(x) => x
    case VBytes(b) => Binary(b)
    case VStr(s) => CoerceText(s)
    case VDict(m) => CoerceDict(m, user)
    case VTuple(items) =>
      if |items| == 2 && StatusOf(items[0]).Some? then StatusText(StatusOf(items[0]).value, items[1])
      else PlainText(v)
    case VInt(_) | VBool(_) =>
      (match StatusOf(v)
       case Some(code) => Status(code)
       case None => PlainText(v))
    case _ => PlainText(v)
  }

  /** `True` and `False` are ints outside [100, 600): a returned bool is
      shown as plain text, not taken for a status. */
  lemma BoolIsText(b: bool, user: Value)
    ensures Coerce(VBool(b), user) == PlainText(VBool(b))
  {
    assert AsInt(VBool(b)) == Some(if b then 1 else 0);
  }

  /** The body responses carry the content type of their case: bytes are
      octet-stream, strings and rendered templates HTML, dicts JSON, and the
      fall-through plain text. */
  lemma CoerceContentType(v: Value, user: Value)
    requires !v.VResponse?
    ensures v.VBytes? ==> ContentType(Coerce(v, user)) == "application/octet-stream"
    ensures v.VStr? && !StartsWith(v.s, redirectPrefix) ==> ContentType(Coerce(v, user)) == "text/html;charset=utf-8"
    ensures v.VDict? && TemplateOf(v.entries) == VNone ==> ContentType(Coerce(v, user)) == "application/json;charset=utf-8"
    ensures v.VDict? && TemplateOf(v.entries) != VNone ==> ContentType(Coerce(v, user)) == "text/html;charset=utf-8"
    ensures Coerce(v, user).PlainText? ==> ContentType(Coerce(v, user)) == "text/plain;charset=utf-8"
    ensures Coerce(v, user).Status? || Coerce(v, user).StatusText? || Coerce(v, user).Redirect? ==> ContentType(Coerce(v, user)) == ""
  {
  }

  /** `"redirect:" + loc` is the inverse of the redirect case: any location
      survives the round trip. */
  lemma RedirectRoundTrip(loc: string, user: Value)
    ensures Coerce(VStr(redirectPrefix + loc), user) == Redirect(loc)
  {
    assert (redirectPrefix + loc)[..|redirectPrefix|] == redirectPrefix;
  }

  /** An integer return value is a bare status exactly inside [100, 600);
      outside it is shown as text. */
  lemma IntStatus(n: int, user: Value)
    ensures 100 <= n < 600 ==> Coerce(VInt(n), user) == Status(n)
    ensures !(100 <= n < 600) ==> Coerce(VInt(n), user) == PlainText(VInt(n))
  {
  }

  /** A pair whose first item is an in-range status becomes that status with
      the second item as its text; any other pair, and any tuple of another
      length, is shown as text. */
  lemma TupleStatus(code: int, message: Value, user: Value)
    ensures 100 <= code < 600 ==> Coerce(VTuple([VInt(code), message]), user) == StatusText(code, message)
    ensures !(100 <= code < 600) ==>
      Coerce(VTuple([VInt(code), message]), user) == PlainText(VTuple([VInt(code), message]))
  {
  }

  lemma OtherTuplesAreText(items: seq<Value>, user: Value)
    requires |items| != 2
    ensures Coerce(VTuple(items), user) == PlainText(VTuple(items))
  {
  }

  /** The signed-in user only matters when a template is rendered. */
  lemma UserOnlyForTemplates(v: Value, u1: Value, u2: Value)
    requires !Coerce(v, u1).Rendered?
    ensures Coerce(v, u1) == Coerce(v, u2)
  {
  }

  /** Coercing a response that was already coerced changes nothing. */
  lemma CoerceIdempotent(v: Value, user: Value, user2: Value)
    ensures Coerce(VResponse(Coerce(v, user)), user2) == Coerce(v, user)
  {
  }

  // ---------------------------------------------------------------------------
  // auth_factory: the signed-in user and the admin gate

  /** `request.__user__`: `cookie2user` of a non-empty session cookie, else None. */
  function CurrentUser(req: Request, cookieToUser: string -> Option<User>): (u: Option<User>)
    ensures req.cookie.None? || req.cookie.value == "" ==> u.None?
    ensures u.Some? ==> req.cookie.Some? && cookieToUser(req.cookie.value) == u
    ensures req.cookie.Some? && req.cookie.value != "" ==> u == cookieToUser(req.cookie.value)
  {
    match req.cookie
    case Some(c) => if c != "" then cookieToUser(c) else None
    case None => None
  }

  /** Whether a signed-in user (or nobody) may see a path. */
  predicate MayVisit(path: string, user: Option<User>) {
    !StartsWith(path, "/manage/") || (user.Some? && user.value.admin)
  }

  datatype Gate = Denied | Admitted(user: Option<User>)

  function Authorize(req: Request, cookieToUser: string -> Option<User>): (g: Gate)
    ensures g.Denied? <==> StartsWith(req.path, "/manage/") && (CurrentUser(req, cookieToUser).None? || !CurrentUser(req, cookieToUser).value.admin)
    ensures g.Admitted? ==> g.user == CurrentUser(req, cookieToUser)
  {
    var user := CurrentUser(req, cookieToUser);
    if MayVisit(req.path, user) then Admitted(user) else Denied
  }

  /** The value `request.__user__` has for the response middleware. */
  function UserValue(u: Option<User>): (v: Value)
    ensures u.None? <==> v == VNone
    ensures u.Some? ==> v == VUser(u.value)
  {
    if u.Some? then VUser(u.value) else VNone
  }

  // ---------------------------------------------------------------------------
  // data_factory

  /** `request.__data__` as `data_factory` leaves it: set only for a POST
      whose content type starts (case-sensitively) with the JSON or the
      url-encoded form type. */
  function Data(req: Request): (d: Option<Value>)
    ensures d.Some? <==>
      (req.verb == "POST" && (StartsWith(req.contentType, jsonType) || StartsWith(req.contentType, formType)))
    ensures d.Some? && StartsWith(req.contentType, jsonType) ==> d.value == req.jsonBody
    ensures d.Some? && !StartsWith(req.contentType, jsonType) ==> d.value == VDict(req.formBody)
  {
    if req.verb != "POST" then None
    else if StartsWith(req.contentType, jsonType) then Some(req.jsonBody)
    else if StartsWith(req.contentType, formType) then Some(VDict(req.formBody))
    else None
  }

  const jsonType := "application/json"
  const formType := "application/x-www-form-urlencoded"

  /** Both media types are written in lower case... */
  lemma TypesAreLowerCase()
    ensures forall i :: 0 <= i < |jsonType| ==> LowerChar(jsonType[i]) == jsonType[i]
    ensures forall i :: 0 <= i < |formType| ==> LowerChar(formType[i]) == formType[i]
  {
  }

  /** ...and neither is a prefix of a string the other one prefixes. */
  lemma FormIsNotJson(s: string)
    requires StartsWith(s, formType)
    ensures !StartsWith(s, jsonType)
  {
    assert s[12] == formType[12] == 'x';
    assert jsonType[12] == 'j';
  }

  /** A lower-case prefix of a string is also a prefix of its lower-cased form. */
  lemma LowerKeepsLowerPrefix(s: string, p: string)
    requires StartsWith(s, p)
    requires forall i :: 0 <= i < |p| ==> LowerChar(p[i]) == p[i]
    ensures StartsWith(Lower(s), p)
  {
    assert Lower(s)[..|p|] == p by {
      forall i | 0 <= i < |p| ensures Lower(s)[i] == p[i] {
        assert s[i] == s[..|p|][i];
      }
    }
  }

  /** Where `data_factory` stores a JSON object, the handler adapter (which
      lower-cases the type first) reads the same object as its parameters. */
  lemma JsonDataAgreesWithAdapter(h: HandlerInfo, req: Request)
    requires h.hasVarKwArg || h.hasNamedKwArgs
    requires req.verb == "POST" && StartsWith(req.contentType, jsonType)
    requires req.jsonBody.VDict?
    ensures Data(req) == Some(req.jsonBody)
    ensures ParseParams(h, req) == Success(Some(req.jsonBody.entries))
  {
    TypesAreLowerCase();
    LowerKeepsLowerPrefix(req.contentType, jsonType);
    JsonObjectAccepted(h, req);
  }

  /** Where `data_factory` stores a url-encoded form, the handler adapter
      reads the same form as its parameters. */
  lemma FormDataAgreesWithAdapter(h: HandlerInfo, req: Request)
    requires h.hasVarKwArg || h.hasNamedKwArgs
    requires req.verb == "POST" && StartsWith(req.contentType, formType)
    ensures Data(req) == Some(VDict(req.formBody))
    ensures ParseParams(h, req) == Success(Some(req.formBody))
  {
    TypesAreLowerCase();
    FormIsNotJson(req.contentType);
    LowerKeepsLowerPrefix(req.contentType, formType);
    FormIsNotJson(Lower(req.contentType));
  }

  // ---------------------------------------------------------------------------
  // The whole pipeline

  /** One request through auth → data → response → handler adapter → handler. */
  function Serve(req: Request, cookieToUser: string -> Option<User>, h: HandlerInfo,
                 fn: map<string, Value> -> HandlerOutcome): (r: Response)
    ensures Authorize(req, cookieToUser).Denied? ==> r == Redirect("/signin")
    ensures Authorize(req, cookieToUser).Admitted? ==>
      r == Coerce(Dispatch(h, req, fn), UserValue(CurrentUser(req, cookieToUser)))
  {
    match Authorize(req, cookieToUser)
    case Denied => Redirect("/signin")
    case Admitted(user) => Coerce(Dispatch(h, req, fn), UserValue(user))
  }

  /** A refused admin page never reaches the handler. */
  lemma DeniedNeverCalls(req: Request, cookieToUser: string -> Option<User>, h: HandlerInfo,
                         f: map<string, Value> -> HandlerOutcome, g: map<string, Value> -> HandlerOutcome)
    requires StartsWith(req.path, "/manage/")
    requires CurrentUser(req, cookieToUser).None? || !CurrentUser(req, cookieToUser).value.admin
    ensures Serve(req, cookieToUser, h, f) == Serve(req, cookieToUser, h, g) == Redirect("/signin")
  {
  }

  /** Paths outside `/manage/`, and every path for an administrator, reach the handler. */
  lemma AdmittedReachesHandler(req: Request, cookieToUser: string -> Option<User>, h: HandlerInfo,
                               fn: map<string, Value> -> HandlerOutcome)
    requires !StartsWith(req.path, "/manage/") ||
      (CurrentUser(req, cookieToUser).Some? && CurrentUser(req, cookieToUser).value.admin)
    ensures Serve(req, cookieToUser, h, fn) == Coerce(Dispatch(h, req, fn), UserValue(CurrentUser(req, cookieToUser)))
  {
  }

  /** A 400 from the handler adapter leaves the pipeline unchanged. */
  lemma BadRequestPassesThrough(req: Request, cookieToUser: string -> Option<User>, h: HandlerInfo,
                                fn: map<string, Value> -> HandlerOutcome)
    requires Authorize(req, cookieToUser).Admitted?
    requires Bind(h, req).Reject?
    ensures Serve(req, cookieToUser, h, fn) == BadRequest(Bind(h, req).text)
  {
  }

  // ---------------------------------------------------------------------------
  // datetime_filter

  /** `int(x)` for a float: truncation toward zero. */
  function Truncate(x: real): (n: int)
    ensures x >= 0.0 ==> n as real <= x < n as real + 1.0
    ensures x < 0.0 ==> n as real - 1.0 < x <= n as real
  {
    if x >= 0.0 then x.Floor else -((-x).Floor)
  }

  /** `int(time.time() - t)`, the age in whole seconds. */
  function Age(now: real, t: real): int {
    Truncate(now - t)
  }

  /** The five answers of `datetime_filter`. */
  datatype Ago = JustNow | Minutes(n: int) | Hours(n: int) | Days(n: int) | OnDate

  const minute := 60
  const hour := 3600
  const day := 86400
  const week := 604800

  function Bucket(delta: int): (a: Ago)
    ensures a == JustNow <==> delta < minute
    ensures a.Minutes? <==> minute <= delta < hour
    ensures a.Hours? <==> hour <= delta < day
    ensures a.Days? <==> day <= delta < week
    ensures a == OnDate <==> week <= delta
    ensures a.Minutes? ==> a.n * minute <= delta < (a.n + 1) * minute && 1 <= a.n < 60
    ensures a.Hours? ==> a.n * hour <= delta < (a.n + 1) * hour && 1 <= a.n < 24
    ensures a.Days? ==> a.n * day <= delta < (a.n + 1) * day && 1 <= a.n < 7
  {
    if delta < minute then JustNow
    else if delta < hour then Minutes(delta / minute)
    else if delta < day then Hours(delta / hour)
    else if delta < week then Days(delta / day)
    else OnDate
  }

  /** The buckets `Bucket` can produce. */
  predicate ValidAgo(a: Ago) {
    match a
    case Minutes(n) => 1 <= n < 60
    case Hours(n) => 1 <= n < 24
    case Days(n) => 1 <= n < 7
    case _ => true
  }

  /** The smallest age that falls in a bucket (for `JustNow`, any age below a minute). */
  function Earliest(a: Ago): int {
    match a
    case JustNow => 0
    case Minutes(n) => n * minute
    case Hours(n) => n * hour
    case Days(n) => n * day
    case OnDate => week
  }

  /** Every valid bucket is reached, first of all by its earliest age. */
  lemma BucketEarliest(a: Ago)
    requires ValidAgo(a)
    ensures Bucket(Earliest(a)) == a
  {
  }

  /** The order of the buckets, and of the counts within one. */
  function Rank(a: Ago): int {
    match a
    case JustNow => 0
    case Minutes(n) => n
    case Hours(n) => 60 + n
    case Days(n) => 84 + n
    case OnDate => 91
  }

  /** Growing older never shows a younger age. */
  lemma BucketMonotone(d1: int, d2: int)
    requires d1 <= d2
    ensures Rank(Bucket(d1)) <= Rank(Bucket(d2))
  {
    var a1, a2 := Bucket(d1), Bucket(d2);
    if a1.Minutes? && a2.Minutes? {
      assert a1.n * minute <= d1 <= d2 < (a2.n + 1) * minute;
    } else if a1.Hours? && a2.Hours? {
      assert a1.n * hour <= d1 <= d2 < (a2.n + 1) * hour;
    } else if a1.Days? && a2.Days? {
      assert a1.n * day <= d1 <= d2 < (a2.n + 1) * day;
    }
  }

  /** "分钟前", "小时前", "天前": minutes, hours, days ago. */
  const minutesAgo := "\U{5206}\U{949F}\U{524D}"
  const hoursAgo := "\U{5C0F}\U{65F6}\U{524D}"
  const daysAgo := "\U{5929}\U{524D}"

  /** The displayed text; `date` is `datetime.fromtimestamp(t)` as (year, month, day). */
  function AgoText(a: Ago, date: (nat, nat, nat)): string
    requires ValidAgo(a)
  {
    match a
    case JustNow => "1" + minutesAgo
    case Minutes(n) => Decimal(n) + minutesAgo
    case Hours(n) => Decimal(n) + hoursAgo
    case Days(n) => Decimal(n) + daysAgo
    case OnDate => Decimal(date.0) + "\U{5E74}" + Decimal(date.1) + "\U{6708}" + Decimal(date.2) + "\U{65E5}"
  }

  /** `datetime_filter(t)` at time `now`. */
  function DatetimeFilter(now: real, t: real, date: (nat, nat, nat)): (s: string)
    ensures Age(now, t) < 2 * minute ==> s == AgoText(Minutes(1), date)
    ensures minute <= Age(now, t) < hour ==> s == Decimal(Age(now, t) / minute) + minutesAgo
    ensures hour <= Age(now, t) < day ==> s == Decimal(Age(now, t) / hour) + hoursAgo
    ensures day <= Age(now, t) < week ==> s == Decimal(Age(now, t) / day) + daysAgo
    ensures week <= Age(now, t) ==> s == AgoText(OnDate, date)
  {
    var a := Bucket(Age(now, t));
    assert a.JustNow? ==> AgoText(a, date) == AgoText(Minutes(1), date) by {
      assert Decimal(1) == "1";
    }
    AgoText(a, date)
  }

  /** Digits followed by a non-digit split uniquely. */
  lemma DigitsSplit(a: string, s: string, b: string, t: string)
    requires IsDigits(a) && IsDigits(b)
    requires |s| > 0 && !('0' <= s[0] <= '9') && |t| > 0 && !('0' <= t[0] <= '9')
    requires a + s == b + t
    ensures a == b && s == t
  {
    var m := if |a| < |b| then |a| else |b|;
    assert m == |a| ==> (a + s)[m] == s[0];
    assert m == |b| ==> (b + t)[m] == t[0];
    assert |a| == |b|;
    assert a == (a + s)[..|a|] && b == (b + t)[..|b|];
    assert s == (a + s)[|a|..] && t == (b + t)[|b|..];
  }

  /** The relative texts tell their buckets apart, except that under a minute
      reads the same as one minute. */
  lemma AgoTextDistinct(a1: Ago, a2: Ago, date: (nat, nat, nat))
    requires ValidAgo(a1) && ValidAgo(a2) && a1 != OnDate && a2 != OnDate
    requires AgoText(a1, date) == AgoText(a2, date)
    ensures a1 == a2 || {a1, a2} == {JustNow, Minutes(1)}
  {
    var d1 := if a1.JustNow? then "1" else Decimal(a1.n);
    var d2 := if a2.JustNow? then "1" else Decimal(a2.n);
    var u1 := AgoText(a1, date)[|d1|..];
    var u2 := AgoText(a2, date)[|d2|..];
    assert AgoText(a1, date) == d1 + u1;
    assert AgoText(a2, date) == d2 + u2;
    DigitsSplit(d1, u1, d2, u2);
    if !a1.JustNow? && !a2.JustNow? {
      DecimalRoundTrip(a1.n);
      DecimalRoundTrip(a2.n);
    } else if a1.JustNow? && !a2.JustNow? {
      DecimalRoundTrip(a2.n);
      assert DecimalValue("1") == 1;
    } else if !a1.JustNow? && a2.JustNow? {
      DecimalRoundTrip(a1.n);
      assert DecimalValue("1") == 1;
    }
  }
}

=== FILE: coroweb.dfy ===
/** The route decorators and the request-handler adapter (www/coroweb.py).
    A handler's signature is given explicitly as its ordered parameter list
    instead of being read by reflection; from it the adapter derives which
    keyword arguments the handler names, requires, or accepts wholesale, and
    per request it assembles the argument map or answers 400. */
module Coroweb {
  import opened Wrappers
  import opened Values
  import opened Strings

  /** `inspect.Parameter.kind`. */
  datatype Kind = PositionalOnly | PositionalOrKeyword | VarPositional | KeywordOnly | VarKeyword

  /** One declared parameter: its name, kind and whether it has a default. */
  datatype Param = Param(name: string, kind: Kind, hasDefault: bool)

  /** Parameter names of a Python signature are distinct. */
  predicate DistinctParams(ps: seq<Param>) {
    forall i, j :: 0 <= i < j < |ps| ==> ps[i].name != ps[j].name
  }

  /** The parameter names in signature order. */
  function Names(ps: seq<Param>): seq<string> {
    if |ps| == 0 then [] else [ps[0].name] + Names(ps[1..])
  }

  /** `get_named_kw_args`: the keyword-only parameters, in signature order. */
  function NamedKwArgs(ps: seq<Param>): (r: seq<string>)
    ensures forall n :: n in r <==> exists p :: p in ps && p.kind == KeywordOnly && p.name == n
    ensures Subsequence(r, Names(ps))
    ensures |r| <= |ps|
  {
    if |ps| == 0 then []
    else
      var rest := NamedKwArgs(ps[1..]);
      if ps[0].kind == KeywordOnly then
        assert ([ps[0].name] + rest)[1..] == rest;
        [ps[0].name] + rest
      else
        SubsequenceCons(ps[0].name, rest, Names(ps[1..]));
        rest
  }

  /** `get_required_kw_args`: the keyword-only parameters without a default, in signature order. */
  function RequiredKwArgs(ps: seq<Param>): (r: seq<string>)
    ensures forall n :: n in r <==> exists p :: p in ps && p.kind == KeywordOnly && !p.hasDefault && p.name == n
    ensures Subsequence(r, Names(ps))
  {
    if |ps| == 0 then []
    else
      var rest := RequiredKwArgs(ps[1..]);
      if ps[0].kind == KeywordOnly && !ps[0].hasDefault then
        assert ([ps[0].name] + rest)[1..] == rest;
        [ps[0].name] + rest
      else
        SubsequenceCons(ps[0].name, rest, Names(ps[1..]));
        rest
  }

  /** `xs` can be obtained from `ys` by deleting elements. */
  predicate Subsequence(xs: seq<string>, ys: seq<string>)
    decreases |ys|
  {
    if |xs| == 0 then true
    else if |ys| == 0 then false
    else if xs[0] == ys[0] then Subsequence(xs[1..], ys[1..])
    else Subsequence(xs, ys[1..])
  }

  lemma {:induction false} SubsequenceCons(x: string, xs: seq<string>, ys: seq<string>)
    requires Subsequence(xs, ys)
    ensures Subsequence(xs, [x] + ys)
    decreases |ys|, 1
  {
    if |xs| > 0 {
      if xs[0] == x {
        assert Subsequence(xs[1..], ys) by {
          SubsequenceTail(xs, ys);
        }
      }
    }
    assert ([x] + ys)[1..] == ys;
  }

  lemma {:induction false} SubsequenceTail(xs: seq<string>, ys: seq<string>)
    requires |xs| > 0 && Subsequence(xs, ys)
    ensures Subsequence(xs[1..], ys)
    decreases |ys|, 0
  {
    if xs[0] != ys[0] {
      SubsequenceTail(xs, ys[1..]);
      SubsequenceCons(ys[0], xs[1..], ys[1..]);
      assert ys == [ys[0]] + ys[1..];
    } else {
      SubsequenceCons(ys[0], xs[1..], ys[1..]);
      assert ys == [ys[0]] + ys[1..];
    }
  }

  /** The required keyword arguments are the named ones, thinned out in order. */
  lemma {:induction false} RequiredWithinNamed(ps: seq<Param>)
    ensures Subsequence(RequiredKwArgs(ps), NamedKwArgs(ps))
  {
    if |ps| > 0 {
      RequiredWithinNamed(ps[1..]);
      var req := RequiredKwArgs(ps[1..]);
      var named := NamedKwArgs(ps[1..]);
      if ps[0].kind == KeywordOnly {
        var x := ps[0].name;
        assert NamedKwArgs(ps) == [x] + named;
        if !ps[0].hasDefault {
          assert RequiredKwArgs(ps) == [x] + req;
          assert ([x] + req)[1..] == req && ([x] + named)[1..] == named;
        } else {
          assert RequiredKwArgs(ps) == req;
          SubsequenceCons(x, req, named);
        }
      } else {
        assert NamedKwArgs(ps) == named && RequiredKwArgs(ps) == req;
      }
    }
  }

  /** `has_named_kw_args` (its None counts as false). */
  function HasNamedKwArgs(ps: seq<Param>): (b: bool)
    ensures b <==> |NamedKwArgs(ps)| > 0
  {
    var b := exists i :: 0 <= i < |ps| && ps[i].kind == KeywordOnly;
    assert b ==> |NamedKwArgs(ps)| > 0 by {
      if b {
        var i :| 0 <= i < |ps| && ps[i].kind == KeywordOnly;
        assert ps[i] in ps;
        assert ps[i].name in NamedKwArgs(ps);
      }
    }
    assert |NamedKwArgs(ps)| > 0 ==> b by {
      if |NamedKwArgs(ps)| > 0 {
        assert NamedKwArgs(ps)[0] in NamedKwArgs(ps);
      }
    }
    b
  }

  /** `has_var_kw_arg` (its None counts as false). */
  function HasVarKwArg(ps: seq<Param>): (b: bool)
    ensures b <==> exists p :: p in ps && p.kind == VarKeyword
  {
    exists i :: 0 <= i < |ps| && ps[i].kind == VarKeyword
  }

  /** The kinds allowed after `request`. */
  predicate AllowedAfterRequest(k: Kind) {
    k == VarPositional || k == KeywordOnly || k == VarKeyword
  }

  /** `has_request_arg`: scans the parameters; once `request` was seen, any
      later parameter of another kind than `*args`, keyword-only or `**kw`
      raises `ValueError`. */
  function HasRequestArg(ps: seq<Param>): (r: Result<bool, string>)
  {
    ScanRequest(ps, false)
  }

  function ScanRequest(ps: seq<Param>, found: bool): (r: Result<bool, string>)
    ensures r.Success? && !r.value ==> !found
  {
    if |ps| == 0 then Success(found)
    else if ps[0].name == "request" then ScanRequest(ps[1..], true)
    else if found && !AllowedAfterRequest(ps[0].kind) then
      Failure("request parameter must be the last named parameter in function")
    else ScanRequest(ps[1..], found)
  }

  /** Where `request` sits, if anywhere. */
  predicate RequestAt(ps: seq<Param>, i: int) {
    0 <= i < |ps| && ps[i].name == "request"
  }

  /** Every parameter after position `i` may follow `request`. */
  predicate TailAllowed(ps: seq<Param>, i: int) {
    forall j :: 0 <= j < |ps| && i < j ==> AllowedAfterRequest(ps[j].kind)
  }

  /** Dropping a first parameter that is not `request` shifts positions by one. */
  lemma ShiftPastFirst(ps: seq<Param>)
    requires |ps| > 0 && ps[0].name != "request"
    ensures (forall i :: RequestAt(ps, i) ==> TailAllowed(ps, i)) <==>
            (forall i :: RequestAt(ps[1..], i) ==> TailAllowed(ps[1..], i))
    ensures (exists i :: RequestAt(ps, i)) <==> (exists i :: RequestAt(ps[1..], i))
  {
    var tail := ps[1..];
    forall i | 0 <= i < |tail| ensures TailAllowed(tail, i) <==> TailAllowed(ps, i + 1) {
      if TailAllowed(tail, i) {
        forall j | 0 <= j < |ps| && i + 1 < j ensures AllowedAfterRequest(ps[j].kind) {
          assert ps[j] == tail[j - 1];
        }
      }
      if TailAllowed(ps, i + 1) {
        forall j | 0 <= j < |tail| && i < j ensures AllowedAfterRequest(tail[j].kind) {
          assert tail[j] == ps[j + 1];
        }
      }
    }
    if forall i :: RequestAt(ps, i) ==> TailAllowed(ps, i) {
      forall i | RequestAt(tail, i) ensures TailAllowed(tail, i) {
        assert RequestAt(ps, i + 1);
      }
    }
    if forall i :: RequestAt(tail, i) ==> TailAllowed(tail, i) {
      forall i | RequestAt(ps, i) ensures TailAllowed(ps, i) {
        assert RequestAt(tail, i - 1);
      }
    }
    if exists i :: RequestAt(ps, i) {
      var i :| RequestAt(ps, i);
      assert RequestAt(tail, i - 1);
    }
    if exists i :: RequestAt(tail, i) {
      var i :| RequestAt(tail, i);
      assert RequestAt(ps, i + 1);
    }
  }

  lemma {:induction false} ScanRequestSpec(ps: seq<Param>, found: bool)
    requires DistinctParams(ps)
    requires found ==> forall i :: !RequestAt(ps, i)
    ensures ScanRequest(ps, found).Success? <==>
      (found ==> TailAllowed(ps, -1)) && forall i :: RequestAt(ps, i) ==> TailAllowed(ps, i)
    ensures ScanRequest(ps, found).Success? ==>
      (ScanRequest(ps, found).value <==> found || exists i :: RequestAt(ps, i))
  {
    if |ps| > 0 {
      var tail := ps[1..];
      assert DistinctParams(tail);
      if ps[0].name == "request" {
        assert !found by { assert RequestAt(ps, 0); }
        forall i | 0 <= i < |tail| ensures !RequestAt(tail, i) {
          assert ps[i + 1] == tail[i];
        }
        ScanRequestSpec(tail, true);
        forall i | RequestAt(ps, i) ensures i == 0 {
        }
        assert TailAllowed(ps, 0) <==> TailAllowed(tail, -1) by {
          if TailAllowed(tail, -1) {
            forall j | 0 <= j < |ps| && 0 < j ensures AllowedAfterRequest(ps[j].kind) {
              assert ps[j] == tail[j - 1];
            }
          }
          if TailAllowed(ps, 0) {
            forall j | 0 <= j < |tail| ensures AllowedAfterRequest(tail[j].kind) {
              assert tail[j] == ps[j + 1];
            }
          }
        }
        assert RequestAt(ps, 0);
      } else {
        ShiftPastFirst(ps);
        if found {
          forall i | 0 <= i < |tail| ensures !RequestAt(tail, i) {
            assert ps[i + 1] == tail[i];
          }
          assert TailAllowed(ps, -1) <==> AllowedAfterRequest(ps[0].kind) && TailAllowed(tail, -1) by {
            if AllowedAfterRequest(ps[0].kind) && TailAllowed(tail, -1) {
              forall j | 0 <= j < |ps| ensures AllowedAfterRequest(ps[j].kind) {
                if j > 0 { assert ps[j] == tail[j - 1]; }
              }
            }
            if TailAllowed(ps, -1) {
              forall j | 0 <= j < |tail| ensures AllowedAfterRequest(tail[j].kind) {
                assert tail[j] == ps[j + 1];
              }
            }
          }
        }
        if !(found && !AllowedAfterRequest(ps[0].kind)) {
          ScanRequestSpec(tail, found);
        }
      }
    }
  }

  /** `has_request_arg` succeeds exactly when every parameter after `request`
      is `*args`, keyword-only or `**kw`, and then answers whether a
      parameter named `request` exists. */
  lemma HasRequestArgSpec(ps: seq<Param>)
    requires DistinctParams(ps)
    ensures HasRequestArg(ps).Success? <==> forall i :: RequestAt(ps, i) ==> TailAllowed(ps, i)
    ensures HasRequestArg(ps).Success? ==> (HasRequestArg(ps).value <==> exists i :: RequestAt(ps, i))
  {
    ScanRequestSpec(ps, false);
  }

  /** What `RequestHandler.__init__` records about a handler. */
  datatype HandlerInfo = HandlerInfo(
    hasRequestArg: bool,
    hasVarKwArg: bool,
    hasNamedKwArgs: bool,
    namedKwArgs: seq<string>,
    requiredKwArgs: seq<string>)

  function Inspect(ps: seq<Param>): (r: Result<HandlerInfo, string>)
    ensures r.Success? <==> HasRequestArg(ps).Success?
    ensures r.Success? ==> r.value.requiredKwArgs == RequiredKwArgs(ps) && r.value.namedKwArgs == NamedKwArgs(ps)
    ensures r.Success? ==> (r.value.hasNamedKwArgs <==> |r.value.namedKwArgs| > 0)
    ensures r.Success? ==> r.value.hasRequestArg == HasRequestArg(ps).value && r.value.hasVarKwArg == HasVarKwArg(ps)
  {
    var hasRequest :- HasRequestArg(ps);
    Success(HandlerInfo(hasRequest, HasVarKwArg(ps), HasNamedKwArgs(ps), NamedKwArgs(ps), RequiredKwArgs(ps)))
  }

  // ---------------------------------------------------------------------------
  // Decorators and registration

  /** A view function: its parameters and the `__method__`/`__route__` tags. */
  datatype ViewFn = ViewFn(params: seq<Param>, verb: Option<string>, route: Option<string>)

  /** `@get(path)`. */
  function Get(path: string, fn: ViewFn): (r: ViewFn)
    ensures r.verb == Some("GET") && r.route == Some(path) && r.params == fn.params
  {
    fn.(verb := Some("GET"), route := Some(path))
  }

  /** `@post(path)`. */
  function Post(path: string, fn: ViewFn): (r: ViewFn)
    ensures r.verb == Some("POST") && r.route == Some(path) && r.params == fn.params
  {
    fn.(verb := Some("POST"), route := Some(path))
  }

  datatype Route = Route(verb: string, path: string, handler: HandlerInfo)

  /** `add_route`: both tags must be present, and the handler's signature
      must pass `has_request_arg`. */
  function AddRoute(fn: ViewFn): (r: Result<Route, string>)
    ensures fn.verb.None? || fn.route.None? ==> r == Failure("@get or @post not defined")
    ensures r.Success? <==> fn.verb.Some? && fn.route.Some? && HasRequestArg(fn.params).Success?
    ensures r.Success? ==> r.value.verb == fn.verb.value && r.value.path == fn.route.value
    ensures fn.verb.Some? && fn.route.Some? && HasRequestArg(fn.params).Failure? ==>
      r == Failure(HasRequestArg(fn.params).error)
  {
    if fn.route.None? || fn.verb.None? then Failure("@get or @post not defined")
    else
      var info :- Inspect(fn.params);
      Success(Route(fn.verb.value, fn.route.value, info))
  }

  /** A decorated handler with a well-placed `request` registers under the
      decorator's method and path. */
  lemma DecoratedRegisters(path: string, fn: ViewFn)
    requires HasRequestArg(fn.params).Success?
    ensures AddRoute(Get(path, fn)) == Success(Route("GET", path, Inspect(fn.params).value))
    ensures AddRoute(Post(path, fn)) == Success(Route("POST", path, Inspect(fn.params).value))
  {
  }

  // ---------------------------------------------------------------------------
  // Per-request argument binding

  /** The outcome of binding: a 400 response, or the keyword arguments to call with. */
  datatype Binding = Reject(text: string) | Call(args: map<string, Value>)

  /** `kw[k] = v[0]` for every key `parse_qs` returned. */
  function FirstValues(q: map<string, QueryValues>): (r: map<string, Value>)
    ensures r.Keys == q.Keys
    ensures forall k :: k in q ==> r[k] == VStr(q[k][0])
  {
    map k | k in q :: VStr(q[k][0])
  }

  /** `dict(**request.match_info)`. */
  function PathArgs(mi: map<string, string>): (r: map<string, Value>)
    ensures r.Keys == mi.Keys
    ensures forall k :: k in mi ==> r[k] == VStr(mi[k])
  {
    map k | k in mi :: VStr(mi[k])
  }

  /** Step 1: the body or query parameters, when the handler takes keyword
      arguments at all. `Success(None)` is the Python `kw is None`. */
  function ParseParams(h: HandlerInfo, req: Request): (r: Result<Option<map<string, Value>>, string>)
    ensures !(h.hasVarKwArg || h.hasNamedKwArgs) ==> r == Success(None)
    ensures r.Failure? ==> (h.hasVarKwArg || h.hasNamedKwArgs) && req.verb == "POST"
    ensures (h.hasVarKwArg || h.hasNamedKwArgs) && req.verb == "POST" && req.contentType == "" ==>
      r == Failure("Missing Content-Type.")
    ensures (h.hasVarKwArg || h.hasNamedKwArgs) && req.verb == "GET" && req.queryString != "" ==>
      r == Success(Some(FirstValues(req.query)))
    ensures (h.hasVarKwArg || h.hasNamedKwArgs) && req.verb != "POST" && !(req.verb == "GET" && req.queryString != "") ==>
      r == Success(None)
  {
    if !(h.hasVarKwArg || h.hasNamedKwArgs) then Success(None)
    else if req.verb == "POST" then
      if req.contentType == "" then Failure("Missing Content-Type.")
      else
        var ct := Lower(req.contentType);
        if StartsWith(ct, "application/json") then
          if req.jsonBody.VDict? then Success(Some(req.jsonBody.entries))
          else Failure("JSON body must be object.")
        else if StartsWith(ct, "application/x-www-form-urlencoded") || StartsWith(ct, "multipart/form-data") then
          Success(Some(req.formBody))
        else Failure("Unsupported Content-Type: " + req.contentType)
    else if req.verb == "GET" && req.queryString != "" then
      Success(Some(FirstValues(req.query)))
    else Success(None)
  }

  /** Steps 2-3: path variables alone when nothing was parsed; otherwise the
      parsed parameters (narrowed to the named ones when the handler has no
      `**kw` but names some), overridden by the path variables. */
  function MergeArgs(h: HandlerInfo, kw: Option<map<string, Value>>, matchInfo: map<string, string>): (r: map<string, Value>)
    ensures kw.None? ==> r == PathArgs(matchInfo)
    ensures forall k :: k in matchInfo ==> k in r && r[k] == VStr(matchInfo[k])
    ensures kw.Some? && !h.hasVarKwArg && h.hasNamedKwArgs ==>
      forall k :: k in r ==> k in matchInfo || (k in h.namedKwArgs && k in kw.value)
    ensures kw.Some? && (h.hasVarKwArg || !h.hasNamedKwArgs) ==>
      r.Keys == kw.value.Keys + matchInfo.Keys
    ensures kw.Some? ==> forall k :: k in r && k !in matchInfo ==> k in kw.value && r[k] == kw.value[k]
    ensures kw.Some? && !h.hasVarKwArg && h.hasNamedKwArgs ==>
      forall k :: k in kw.value && k in h.namedKwArgs ==> k in r
  {
    match kw
    case None => PathArgs(matchInfo)
    case Some(params) =>
      var kept := if !h.hasVarKwArg && h.hasNamedKwArgs
        then map k | k in params && k in h.namedKwArgs :: params[k]
        else params;
      kept + PathArgs(matchInfo)
  }

  /** Step 5: the first required argument, in declaration order, missing from the map. */
  function FirstMissing(required: seq<string>, args: map<string, Value>): (r: Option<string>)
    ensures r.None? <==> forall n :: n in required ==> n in args
    ensures r.Some? ==> r.value in required && r.value !in args
    ensures r.Some? ==>
      (exists i :: 0 <= i < |required| && required[i] == r.value && forall j :: 0 <= j < i ==> required[j] in args)
  {
    if |required| == 0 then None
    else if required[0] !in args then Some(required[0])
    else
      var rest := FirstMissing(required[1..], args);
      if rest.Some? then
        var i :| 0 <= i < |required[1..]| && required[1..][i] == rest.value &&
          (forall j :: 0 <= j < i ==> required[1..][j] in args);
        assert required[i + 1] == rest.value;
        rest
      else
        rest
  }

  /** `RequestHandler.__call__` up to the call itself. */
  function Bind(h: HandlerInfo, req: Request): (r: Binding)
    ensures ParseParams(h, req).Failure? ==> r == Reject(ParseParams(h, req).error)
    ensures r.Call? ==> forall n :: n in h.requiredKwArgs ==> n in r.args
    ensures r.Call? && h.hasRequestArg ==> "request" in r.args && r.args["request"] == VRequest
    ensures r.Call? ==> r.args == WithRequest(h, MergeArgs(h, ParseParams(h, req).value, req.matchInfo))
    ensures r.Reject? && ParseParams(h, req).Success? ==>
      var args := WithRequest(h, MergeArgs(h, ParseParams(h, req).value, req.matchInfo));
      FirstMissing(h.requiredKwArgs, args).Some? &&
      r.text == "Missing argument: " + FirstMissing(h.requiredKwArgs, args).value
  {
    match ParseParams(h, req)
    case Failure(text) => Reject(text)
    case Success(kw) =>
      var args := WithRequest(h, MergeArgs(h, kw, req.matchInfo));
      match FirstMissing(h.requiredKwArgs, args)
      case Some(name) => Reject("Missing argument: " + name)
      case None => Call(args)
  }

  /** Step 4: `kw['request'] = request` when the handler takes it. */
  function WithRequest(h: HandlerInfo, args: map<string, Value>): (r: map<string, Value>)
    ensures h.hasRequestArg ==> r == args["request" := VRequest]
    ensures !h.hasRequestArg ==> r == args
  {
    if h.hasRequestArg then args["request" := VRequest] else args
  }

  /** What the wrapped handler does with its arguments. */
  datatype HandlerOutcome = Returned(value: Value) | RaisedApiError(error: Value, data: Value, message: Value)

  /** The full `__call__`: a 400 comes back as the response object (it is
      returned, not raised); an `APIError` becomes `{error, data, message}`. */
  function Dispatch(h: HandlerInfo, req: Request, fn: map<string, Value> -> HandlerOutcome): (r: Value)
    ensures Bind(h, req).Reject? ==> r == VResponse(BadRequest(Bind(h, req).text))
    ensures Bind(h, req).Call? && fn(Bind(h, req).args).Returned? ==> r == fn(Bind(h, req).args).value
    ensures Bind(h, req).Call? && fn(Bind(h, req).args).RaisedApiError? ==>
      var e := fn(Bind(h, req).args);
      r == VDict(map["error" := e.error, "data" := e.data, "message" := e.message])
  {
    match Bind(h, req)
    case Reject(text) => VResponse(BadRequest(text))
    case Call(args) =>
      match fn(args)
      case Returned(v) => v
      case RaisedApiError(e, d, m) => VDict(map["error" := e, "data" := d, "message" := m])
  }

  /** A rejected request never reaches the handler: any two handlers give the
      same answer. */
  lemma RejectedNeverCalls(h: HandlerInfo, req: Request, f: map<string, Value> -> HandlerOutcome, g: map<string, Value> -> HandlerOutcome)
    requires Bind(h, req).Reject?
    ensures Dispatch(h, req, f) == Dispatch(h, req, g)
  {
  }

  /** A POST to a handler that takes keyword arguments is rejected, before
      the handler runs, when the content type is missing, when a JSON body is
      not an object, or when the content type is neither JSON nor a form. */
  lemma PostRejections(h: HandlerInfo, req: Request, fn: map<string, Value> -> HandlerOutcome)
    requires h.hasVarKwArg || h.hasNamedKwArgs
    requires req.verb == "POST"
    ensures req.contentType == "" ==>
      Dispatch(h, req, fn) == VResponse(BadRequest("Missing Content-Type."))
    ensures req.contentType != "" && StartsWith(Lower(req.contentType), "application/json") && !req.jsonBody.VDict? ==>
      Dispatch(h, req, fn) == VResponse(BadRequest("JSON body must be object."))
    ensures (req.contentType != ""
      && !StartsWith(Lower(req.contentType), "application/json")
      && !StartsWith(Lower(req.contentType), "application/x-www-form-urlencoded")
      && !StartsWith(Lower(req.contentType), "multipart/form-data")) ==>
      Dispatch(h, req, fn) == VResponse(BadRequest("Unsupported Content-Type: " + req.contentType))
  {
  }

  /** A GET with a query string hands the handler the first value of every
      query key, except where a path variable of the same name wins or the
      handler's named arguments filter the key out. */
  lemma GetUsesFirstQueryValues(h: HandlerInfo, req: Request, k: string)
    requires h.hasVarKwArg || h.hasNamedKwArgs
    requires req.verb == "GET" && req.queryString != ""
    requires k in req.query && k !in req.matchInfo && k != "request"
    requires h.hasVarKwArg || k in h.namedKwArgs
    ensures Bind(h, req).Call? ==> k in Bind(h, req).args && Bind(h, req).args[k] == VStr(req.query[k][0])
    ensures Bind(h, req).Call? ==>
      Bind(h, req).args == WithRequest(h, MergeArgs(h, Some(FirstValues(req.query)), req.matchInfo))
  {
    var kw := FirstValues(req.query);
    assert ParseParams(h, req) == Success(Some(kw));
    var args := WithRequest(h, MergeArgs(h, Some(kw), req.matchInfo));
    assert k in args && args[k] == VStr(req.query[k][0]) by {
      var merged := MergeArgs(h, Some(kw), req.matchInfo);
      assert k in kw && kw[k] == VStr(req.query[k][0]);
      assert k in merged && merged[k] == kw[k];
    }
    if Bind(h, req).Call? {
      assert Bind(h, req).args == args;
    }
  }

  /** Without parsed parameters the arguments are exactly the path variables
      (and the request, if the handler takes it). */
  lemma NoParamsMeansPathOnly(h: HandlerInfo, req: Request)
    requires ParseParams(h, req) == Success(None)
    requires Bind(h, req).Call?
    ensures Bind(h, req).args == WithRequest(h, PathArgs(req.matchInfo))
  {
  }

  /** A POST whose content type starts, in any letter case, with the
      url-encoded form type or with `multipart/form-data` yields the form. */
  lemma FormBodyAccepted(h: HandlerInfo, req: Request)
    requires h.hasVarKwArg || h.hasNamedKwArgs
    requires req.verb == "POST"
    requires StartsWith(Lower(req.contentType), "application/x-www-form-urlencoded")
          || StartsWith(Lower(req.contentType), "multipart/form-data")
    ensures ParseParams(h, req) == Success(Some(req.formBody))
  {
    var ct := Lower(req.contentType);
    assert req.contentType != "" by {
      assert |ct| > 0;
    }
    assert !StartsWith(ct, "application/json") by {
      if StartsWith(ct, "multipart/form-data") {
        assert ct[0] == "multipart/form-data"[0] == 'm';
      } else {
        assert ct[12] == "application/x-www-form-urlencoded"[12] == 'x';
      }
    }
  }

  /** A POST whose content type starts, in any letter case, with
      `application/json` and whose body is a JSON object yields that object. */
  lemma JsonObjectAccepted(h: HandlerInfo, req: Request)
    requires h.hasVarKwArg || h.hasNamedKwArgs
    requires req.verb == "POST" && StartsWith(Lower(req.contentType), "application/json")
    requires req.jsonBody.VDict?
    ensures ParseParams(h, req) == Success(Some(req.jsonBody.entries))
  {
  }

  /** The handler `(id, *, name, request)`. */
  const exampleParams := [Param("id", PositionalOrKeyword, false), Param("name", KeywordOnly, false),
                          Param("request", KeywordOnly, false)]

  /** It is registered as taking `request` and the named arguments `name`
      and `request`, both required. */
  lemma ExampleInspect()
    ensures Inspect(exampleParams) == Success(HandlerInfo(true, false, true, ["name", "request"], ["name", "request"]))
  {
    var ps := exampleParams;
    assert ps[1..] == [Param("name", KeywordOnly, false), Param("request", KeywordOnly, false)];
    assert ps[1..][1..] == [Param("request", KeywordOnly, false)];
    assert ps[1..][1..][1..] == [];
    assert NamedKwArgs(ps) == ["name", "request"];
    assert RequiredKwArgs(ps) == ["name", "request"];
    assert HasRequestArg(ps) == Success(true);
    assert HasNamedKwArgs(ps);
    assert !HasVarKwArg(ps);
  }

  /** Only `name` survives the whitelist, and the path variable joins it. */
  lemma ExampleMerge(h: HandlerInfo, body: map<string, Value>, matchInfo: map<string, string>)
    requires h == HandlerInfo(true, false, true, ["name", "request"], ["name", "request"])
    requires body == map["name" := VStr("x"), "extra" := VStr("y")]
    requires matchInfo == map["id" := "42"]
    ensures MergeArgs(h, Some(body), matchInfo) == map["name" := VStr("x"), "id" := VStr("42")]
  {
    var kept := map k | k in body && k in h.namedKwArgs :: body[k];
    assert kept == map["name" := VStr("x")];
  }

  /** Posted (with a JSON content type) the object `{"name": "x", "extra": "y"}`
      on a route that matched `id=42`, it is called with `name`, `id` and the
      request; `extra` is dropped. */
  lemma ExampleBind(h: HandlerInfo, req: Request)
    requires h == HandlerInfo(true, false, true, ["name", "request"], ["name", "request"])
    requires req.verb == "POST" && StartsWith(Lower(req.contentType), "application/json")
    requires req.jsonBody == VDict(map["name" := VStr("x"), "extra" := VStr("y")])
    requires req.matchInfo == map["id" := "42"]
    ensures Bind(h, req) == Call(map["name" := VStr("x"), "id" := VStr("42"), "request" := VRequest])
  {
    JsonObjectAccepted(h, req);
    ExampleMerge(h, req.jsonBody.entries, req.matchInfo);
    var args := map["name" := VStr("x"), "id" := VStr("42")]["request" := VRequest];
    assert WithRequest(h, map["name" := VStr("x"), "id" := VStr("42")]) == args;
    assert FirstMissing(h.requiredKwArgs, args) == None;
  }
}

=== FILE: db.dfy ===
/** The data-access functions `select` and `execute` (www/orm.py). The pooled
    connection and the MySQL driver are abstract: what the driver does with a
    statement (its rows, its row count, whether `begin`/`commit`/`rollback`
    fail) is an input, and each call is described by the statement it sends and
    the trace of calls it makes on the leased connection. */
module Db {
  import opened Wrappers
  import opened Values
  import opened Strings

  /** A result row of the dictionary cursor: column name to value. */
  type Row = map<string, Value>

  /** `sql.replace('?', '%s')`: the driver's placeholder syntax. */
  function Placeholders(sql: string): (r: string)
    ensures '?' !in r
    ensures |r| == |sql| + Count('?', sql)
  {
    if |sql| == 0 then ""
    else (if sql[0] == '?' then "%s" else [sql[0]]) + Placeholders(sql[1..])
  }

  /** The rewrite works character by character: it distributes over concatenation... */
  lemma {:induction false} PlaceholdersAppend(a: string, b: string)
    ensures Placeholders(a + b) == Placeholders(a) + Placeholders(b)
  {
    if |a| == 0 {
      assert a + b == b;
    } else {
      assert (a + b)[1..] == a[1..] + b;
      PlaceholdersAppend(a[1..], b);
    }
  }

  /** ...turns each `?` into `%s` and leaves every other character alone... */
  lemma PlaceholdersChar(c: char)
    ensures Placeholders([c]) == if c == '?' then "%s" else [c]
  {
    assert [c][1..] == "";
  }

  /** ...so text without `?` goes to the driver unchanged, and rewriting twice
      is the same as rewriting once. */
  lemma {:induction false} PlaceholdersIdentity(s: string)
    requires '?' !in s
    ensures Placeholders(s) == s
  {
    if |s| > 0 {
      assert '?' !in s[1..] by {
        forall i | 0 <= i < |s[1..]| ensures s[1..][i] != '?' {
          assert s[1..][i] == s[i + 1];
        }
      }
      PlaceholdersIdentity(s[1..]);
    }
  }

  lemma PlaceholdersIdempotent(s: string)
    ensures Placeholders(Placeholders(s)) == Placeholders(s)
  {
    PlaceholdersIdentity(Placeholders(s));
  }

  /** `args or ()`. */
  function ArgsOrEmpty(args: Option<seq<Value>>): seq<Value> {
    args.GetOr([])
  }

  /** A statement as the cursor receives it. */
  datatype Sent = Sent(sql: string, args: seq<Value>)

  /** What `select`/`execute` hand to `cur.execute`. */
  function Prepare(sql: string, args: Option<seq<Value>>): (s: Sent)
    ensures s.sql == Placeholders(sql) && '?' !in s.sql
    ensures |s.args| == |ArgsOrEmpty(args)|
    ensures args.Some? ==> s.args == args.value
    ensures args.None? ==> s.args == []
  {
    Sent(Placeholders(sql), ArgsOrEmpty(args))
  }

  /** `fetchmany(size)` when `size` is truthy, otherwise `fetchall()`: a prefix
      of the driver's rows, at most `size` long. */
  function Fetch(rows: seq<Row>, size: Option<nat>): (r: seq<Row>)
    ensures |r| <= |rows| && r == rows[..|r|]
    ensures size.Some? && size.value != 0 ==> |r| == if |rows| < size.value then |rows| else size.value
    ensures size.None? || size.value == 0 ==> r == rows
  {
    if size.Some? && size.value != 0 && size.value < |rows| then rows[..size.value] else rows
  }

  /** `select(sql, args, size)`: the statement sent and the rows returned, given
      every row the driver would produce for it. */
  datatype Selected = Selected(sent: Sent, rows: seq<Row>)

  function Select(sql: string, args: Option<seq<Value>>, size: Option<nat>, driverRows: seq<Row>): (r: Selected)
    ensures r.sent == Prepare(sql, args)
    ensures |r.rows| <= |driverRows| && r.rows == driverRows[..|r.rows|]
    ensures size.Some? && size.value != 0 ==> |r.rows| <= size.value
    ensures |r.rows| == 0 <==> |driverRows| == 0
    ensures r.rows == Fetch(driverRows, size)
  {
    Selected(Prepare(sql, args), Fetch(driverRows, size))
  }

  /** How the connection answers one call. */
  datatype Step = Done | Fails(reason: string)

  /** What the driver does with an `execute` call. */
  datatype RunOutcome = RowCount(count: int) | RunFails(reason: string)

  datatype Driver = Driver(begin: Step, run: RunOutcome, commit: Step, rollback: Step)

  /** The calls `execute` makes, in order. */
  datatype Event = Acquire | Begin | Run(sent: Sent) | Commit | Rollback | Release

  /** `execute` returns the affected-row count or re-raises. */
  datatype Outcome = Affected(rows: int) | Raised(reason: string)

  /** Connection discipline, stated independently of `Execute`: the connection
      is leased first and released last, exactly once; a transaction, when one
      is begun, is closed by a commit or a rollback right before the release,
      unless beginning it failed. */
  predicate Bracketed(t: seq<Event>) {
    && |t| >= 2
    && t[0] == Acquire && t[|t| - 1] == Release
    && (forall i :: 0 < i < |t| - 1 ==> t[i] != Acquire && t[i] != Release)
    && (Begin in t ==> t[1] == Begin && (|t| == 3 || t[|t| - 2] == Commit || t[|t| - 2] == Rollback))
  }

  /** `execute(sql, args, autocommit)`: with autocommit off, `begin` precedes
      the statement, `commit` follows it, and a failure of either the
      statement or the commit triggers a rollback and is re-raised (a failing
      rollback raises its own error instead). The lease is always released. */
  function Execute(sql: string, args: Option<seq<Value>>, autocommit: bool, d: Driver): (r: (seq<Event>, Outcome))
    ensures Bracketed(r.0)
    ensures forall e :: e in r.0 && e.Run? ==> e.sent == Prepare(sql, args)
    ensures autocommit ==> Begin !in r.0 && Commit !in r.0 && Rollback !in r.0
    ensures !autocommit ==> r.0[1] == Begin
    ensures r.1.Affected? <==> d.run.RowCount? && (autocommit || (d.begin.Done? && d.commit.Done?))
    ensures r.1.Affected? ==> r.1.rows == d.run.count && Rollback !in r.0
    ensures r.1.Affected? && !autocommit ==> r.0 == [Acquire, Begin, Run(Prepare(sql, args)), Commit, Release]
    ensures r.1.Raised? && !autocommit && d.begin.Done? ==> r.0[|r.0| - 2] == Rollback && Run(Prepare(sql, args)) in r.0
    ensures d.run.RunFails? && (autocommit || (d.begin.Done? && d.rollback.Done?)) ==> r.1 == Raised(d.run.reason)
    ensures autocommit ==> r.0 == [Acquire, Run(Prepare(sql, args)), Release]
    ensures !autocommit && d.begin.Fails? ==> r.0 == [Acquire, Begin, Release] && r.1 == Raised(d.begin.reason)
    ensures !autocommit && d.begin.Done? && d.run.RunFails? ==>
      r.0 == [Acquire, Begin, Run(Prepare(sql, args)), Rollback, Release] && r.1 == Raised(RolledBack(d.run.reason, d.rollback))
    ensures !autocommit && d.begin.Done? && d.run.RowCount? && d.commit.Fails? ==>
      r.0 == [Acquire, Begin, Run(Prepare(sql, args)), Commit, Rollback, Release] && r.1 == Raised(RolledBack(d.commit.reason, d.rollback))
  {
    var run := Run(Prepare(sql, args));
    if autocommit then
      match d.run
      case RowCount(n) => ([Acquire, run, Release], Affected(n))
      case RunFails(e) => ([Acquire, run, Release], Raised(e))
    else if d.begin.Fails? then
      ([Acquire, Begin, Release], Raised(d.begin.reason))
    else
      match d.run
      case RunFails(e) =>
        ([Acquire, Begin, run, Rollback, Release], Raised(RolledBack(e, d.rollback)))
      case RowCount(n) =>
        if d.commit.Fails? then
          ([Acquire, Begin, run, Commit, Rollback, Release], Raised(RolledBack(d.commit.reason, d.rollback)))
        else
          ([Acquire, Begin, run, Commit, Release], Affected(n))
  }

  /** The error that leaves the `except` block: the original one, unless the
      rollback itself raised. */
  function RolledBack(original: string, rollback: Step): string {
    if rollback.Fails? then rollback.reason else original
  }
}

=== FILE: orm_model.dfy ===
/** The `Model` base class (www/orm.py): attribute lookup with lazily stored
    defaults, and the statements and argument lists behind `findAll`,
    `findNumber`, `find`, `save`, `update` and `remove`. An instance is a plain
    record; each operation is a function of the record, the class metadata and
    what the abstract driver answers. */
module OrmModel {
  import opened Wrappers
  import opened Values
  import opened Strings
  import opened OrmSchema
  import Db

  /** A model instance: the dict it is. */
  type Record = map<string, Value>

  /** `getValue(key)`: the stored value, or None when the key is absent. */
  function GetValue(rec: Record, key: string): (v: Value)
    ensures key in rec ==> v == rec[key]
    ensures v != VNone ==> key in rec && rec[key] == v
    ensures key !in rec ==> v == VNone
  {
    if key in rec then rec[key] else VNone
  }

  /** `__setattr__` stores into the dict and `getValue` reads it back; no
      other attribute changes. */
  lemma SetThenGet(rec: Record, key: string, v: Value)
    ensures GetValue(rec[key := v], key) == v
    ensures forall k :: k != key ==> GetValue(rec[key := v], k) == GetValue(rec, k)
  {
  }

  /** `getValueOrDefault(key)`: a stored non-None value is returned as is; a
      None falls back to the field's default (calling it if callable), which
      is then stored under the key. Nothing else in the record changes, and
      afterwards the record holds what was returned. The field lookup
      `__mappings__[key]` happens only on the None path, so only that path
      needs the key to be a field. */
  function GetValueOrDefault(mappings: map<string, Field>, rec: Record, key: string): (res: (Value, Record))
    requires GetValue(rec, key) == VNone ==> key in mappings
    ensures GetValue(res.1, key) == res.0
    ensures forall k :: k != key ==> GetValue(res.1, k) == GetValue(rec, k)
    ensures GetValue(rec, key) != VNone ==> res == (GetValue(rec, key), rec)
    ensures GetValue(rec, key) == VNone && !HasDefault(mappings[key].default) ==> res == (VNone, rec)
    ensures GetValue(rec, key) == VNone && HasDefault(mappings[key].default) ==>
      res.0 == DefaultValue(mappings[key].default) && res.1 == rec[key := res.0]
  {
    var value := GetValue(rec, key);
    if value == VNone && HasDefault(mappings[key].default) then
      var d := DefaultValue(mappings[key].default);
      (d, rec[key := d])
    else
      (value, rec)
  }

  /** Asking again gives the same answer and changes nothing more. */
  lemma GetValueOrDefaultIdempotent(mappings: map<string, Field>, rec: Record, key: string)
    requires key in mappings
    ensures var (v, after) := GetValueOrDefault(mappings, rec, key);
      GetValueOrDefault(mappings, after, key) == (v, after)
  {
    var (v, after) := GetValueOrDefault(mappings, rec, key);
    if GetValue(rec, key) == VNone && HasDefault(mappings[key].default) {
      assert after[key := v] == after;
    }
  }

  /** `list(map(self.getValueOrDefault, keys))`, threading the record through
      the calls left to right. */
  function ResolveAll(mappings: map<string, Field>, rec: Record, keys: seq<string>): (res: (seq<Value>, Record))
    requires forall k :: k in keys ==> k in mappings
    requires Distinct(keys)
    ensures |res.0| == |keys|
    ensures forall i :: 0 <= i < |keys| ==> res.0[i] == GetValue(res.1, keys[i])
    ensures forall i :: 0 <= i < |keys| ==> res.0[i] == GetValueOrDefault(mappings, rec, keys[i]).0
    ensures forall k :: k !in keys ==> GetValue(res.1, k) == GetValue(rec, k)
    ensures forall k :: GetValue(rec, k) != VNone ==> GetValue(res.1, k) == GetValue(rec, k)
    decreases |keys|
  {
    if |keys| == 0 then ([], rec)
    else
      var (v, r1) := GetValueOrDefault(mappings, rec, keys[0]);
      var (vs, r2) := ResolveAll(mappings, r1, keys[1..]);
      assert forall i :: 1 <= i < |keys| ==> keys[i] in keys[1..];
      ([v] + vs, r2)
  }

  // ---------------------------------------------------------------------------
  // Statements

  /** SQL text with `?` placeholders and its positional arguments. */
  datatype Stmt = Stmt(sql: string, args: seq<Value>)

  /** Every placeholder has exactly one argument. */
  predicate Balanced(s: Stmt) {
    Count('?', s.sql) == |s.args|
  }

  /** No identifier of the entity contains a `?` (identifiers are not escaped). */
  predicate PlainNames(m: Meta) {
    && '?' !in m.table && '?' !in m.primaryKey
    && forall f :: f in m.fields ==> '?' !in f && (f in m.mappings ==> '?' !in ColumnName(m.mappings, f))
  }

  /** The key and the non-key fields together are distinct mapped attributes. */
  lemma KeyAndFields(m: Meta)
    requires ValidMeta(m)
    ensures Distinct(m.fields + [m.primaryKey])
    ensures forall k :: k in m.fields + [m.primaryKey] ==> k in m.mappings
  {
    var ks := m.fields + [m.primaryKey];
    forall i, j | 0 <= i < j < |ks| ensures ks[i] != ks[j] {
      if j == |m.fields| {
        assert ks[i] in m.fields;
      }
    }
  }

  /** `save`'s arguments: every non-key field then the key, each resolved
      with `getValueOrDefault`; the record comes back with the defaults stored. */
  function SaveStatement(m: Meta, rec: Record): (res: (Stmt, Record))
    requires ValidMeta(m)
    ensures res.0.sql == m.insert
    ensures |res.0.args| == |m.fields| + 1
    ensures forall i :: 0 <= i < |m.fields| ==> res.0.args[i] == GetValueOrDefault(m.mappings, rec, m.fields[i]).0
    ensures res.0.args[|m.fields|] == GetValueOrDefault(m.mappings, rec, m.primaryKey).0
    ensures forall k :: GetValue(rec, k) != VNone ==> GetValue(res.1, k) == GetValue(rec, k)
    ensures forall k :: k !in m.mappings ==> GetValue(res.1, k) == GetValue(rec, k)
    ensures forall i :: 0 <= i < |m.fields| ==> GetValue(res.1, m.fields[i]) == res.0.args[i]
    ensures GetValue(res.1, m.primaryKey) == res.0.args[|m.fields|]
  {
    KeyAndFields(m);
    var keys := m.fields + [m.primaryKey];
    var (args, after) := ResolveAll(m.mappings, rec, keys);
    assert forall i :: 0 <= i < |m.fields| ==> keys[i] == m.fields[i];
    (Stmt(m.insert, args), after)
  }

  /** `update`'s arguments: every non-key field then the key, read with
      `getValue`; the record itself is not touched. */
  function UpdateStatement(m: Meta, rec: Record): (s: Stmt)
    ensures s.sql == m.update
    ensures |s.args| == |m.fields| + 1
    ensures forall i :: 0 <= i < |m.fields| ==> s.args[i] == GetValue(rec, m.fields[i])
    ensures s.args[|m.fields|] == GetValue(rec, m.primaryKey)
  {
    Stmt(m.update, seq(|m.fields|, i requires 0 <= i < |m.fields| => GetValue(rec, m.fields[i])) + [GetValue(rec, m.primaryKey)])
  }

  /** `remove`'s single argument is the key's value. */
  function RemoveStatement(m: Meta, rec: Record): (s: Stmt)
    ensures s.sql == m.delete && s.args == [GetValue(rec, m.primaryKey)]
  {
    Stmt(m.delete, [GetValue(rec, m.primaryKey)])
  }

  lemma QuotedExcludes(xs: seq<string>)
    requires forall x :: x in xs ==> '?' !in x
    ensures '?' !in Join(", ", QuoteAll(xs))
  {
    var q := QuoteAll(xs);
    forall i | 0 <= i < |q| ensures '?' !in q[i] {
      assert xs[i] in xs;
    }
    JoinExcludes('?', ", ", q);
  }

  /** The canned SELECT carries no placeholder. */
  lemma SelectHasNoPlaceholder(m: Meta)
    requires ValidMeta(m) && PlainNames(m)
    ensures Count('?', m.select) == 0
  {
    SelectSqlCount(m.table, m.primaryKey, m.fields);
  }

  lemma SelectSqlCount(table: string, pk: string, fields: seq<string>)
    requires '?' !in table && '?' !in pk && forall f :: f in fields ==> '?' !in f
    ensures Count('?', SelectSql(table, pk, fields)) == 0
  {
    QuotedExcludes(fields);
    var cols := Join(", ", QuoteAll(fields));
    assert '?' !in "select " + Quote(pk) + ", ";
    assert '?' !in " from " + Quote(table);
    CountZero('?', SelectSql(table, pk, fields));
  }

  lemma InsertSqlCount(table: string, pk: string, fields: seq<string>)
    requires '?' !in table && '?' !in pk && forall f :: f in fields ==> '?' !in f
    ensures Count('?', InsertSql(table, pk, fields)) == |fields| + 1
  {
    var head := InsertHead(table, pk, fields);
    var marks := CreateArgsString(|fields| + 1);
    QuotedExcludes(fields);
    assert '?' !in head by {
      var cols := Join(", ", QuoteAll(fields));
      assert '?' !in "insert into " + Quote(table) + " (";
      assert '?' !in ", " + Quote(pk) + ") values (";
    }
    CountZero('?', head);
    assert Count('?', ")") == 0;
    CountAppend('?', head + marks, ")");
    CountAppend('?', head, marks);
  }

  /** INSERT: `len(fields) + 1` placeholders, `len(fields) + 1` arguments. */
  lemma InsertBalanced(m: Meta, rec: Record)
    requires ValidMeta(m) && PlainNames(m)
    ensures Count('?', m.insert) == |m.fields| + 1
    ensures Balanced(SaveStatement(m, rec).0)
  {
    InsertSqlCount(m.table, m.primaryKey, m.fields);
  }

  lemma {:induction false} SetClausesCount(mappings: map<string, Field>, fields: seq<string>)
    requires forall f :: f in fields ==> f in mappings && '?' !in ColumnName(mappings, f)
    ensures SumCounts('?', SetClauses(mappings, fields)) == |fields|
    decreases |fields|
  {
    if |fields| > 0 {
      var c := Quote(ColumnName(mappings, fields[0]));
      CountZero('?', c);
      CountAppend('?', c, "=?");
      assert SetClauses(mappings, fields)[1..] == SetClauses(mappings, fields[1..]);
      SetClausesCount(mappings, fields[1..]);
    }
  }

  lemma UpdateSqlCount(table: string, mappings: map<string, Field>, pk: string, fields: seq<string>)
    requires '?' !in table && '?' !in pk
    requires forall f :: f in fields ==> f in mappings && '?' !in ColumnName(mappings, f)
    ensures Count('?', UpdateSql(table, mappings, pk, fields)) == |fields| + 1
  {
    var head := "update " + Quote(table) + " set ";
    var sets := Join(", ", SetClauses(mappings, fields));
    var tail := " where " + Quote(pk);
    SetClausesCount(mappings, fields);
    CountJoin('?', ", ", SetClauses(mappings, fields));
    CountZero('?', head);
    CountZero('?', tail);
    assert Count('?', "=?") == 1;
    assert UpdateSql(table, mappings, pk, fields) == head + sets + tail + "=?";
    CountAppend('?', head + sets + tail, "=?");
    CountAppend('?', head + sets, tail);
    CountAppend('?', head, sets);
  }

  /** UPDATE: one `col=?` per non-key field plus the key's, matching `update`'s arguments. */
  lemma UpdateBalanced(m: Meta, rec: Record)
    requires ValidMeta(m) && PlainNames(m)
    ensures Count('?', m.update) == |m.fields| + 1
    ensures Balanced(UpdateStatement(m, rec))
  {
    UpdateSqlCount(m.table, m.mappings, m.primaryKey, m.fields);
  }

  lemma DeleteSqlCount(table: string, pk: string)
    requires '?' !in table && '?' !in pk
    ensures Count('?', DeleteSql(table, pk)) == 1
  {
    var head := "delete from " + Quote(table) + " where " + Quote(pk);
    CountZero('?', head);
    assert Count('?', "=?") == 1;
    CountAppend('?', head, "=?");
  }

  /** DELETE: one placeholder, one argument. */
  lemma DeleteBalanced(m: Meta, rec: Record)
    requires ValidMeta(m) && PlainNames(m)
    ensures Balanced(RemoveStatement(m, rec))
  {
    DeleteSqlCount(m.table, m.primaryKey);
  }

  // ---------------------------------------------------------------------------
  // Queries

  /** Python truthiness of an optional string. */
  predicate Truthy(s: Option<string>) {
    s.Some? && s.value != ""
  }

  /** `ValueError('Invalid limit value: ...')` and the `KeyError` of a row without `__num__`. */
  datatype QueryError = InvalidLimit(limit: Value) | MissingColumn(column: string)

  /** A `limit` findAll accepts: None, an int (a bool is one), or a pair. */
  predicate ValidLimit(limit: Value) {
    limit == VNone || AsInt(limit).Some? || (limit.VTuple? && |limit.items| == 2)
  }

  function WhereParts(where: Option<string>): seq<string> {
    if Truthy(where) then ["where", where.value] else []
  }

  function OrderParts(orderBy: Option<string>): seq<string> {
    if Truthy(orderBy) then ["order by", orderBy.value] else []
  }

  function LimitParts(limit: Value): seq<string> {
    if limit == VNone then [] else if AsInt(limit).Some? then ["limit", "?"] else ["limit", "?, ?"]
  }

  /** What the limit appends to the arguments. */
  function LimitArgs(limit: Value): seq<Value>
    requires ValidLimit(limit)
  {
    if limit == VNone then [] else if AsInt(limit).Some? then [limit] else limit.items
  }

  /** The `sql` list of `findAll`, joined by spaces. */
  function FindAllSql(select: string, where: Option<string>, orderBy: Option<string>, limit: Value): string {
    Join(" ", [select] + (WhereParts(where) + OrderParts(orderBy) + LimitParts(limit)))
  }

  /** `findAll(where, args, orderBy=..., limit=...)`: the canned SELECT, then
      the optional clauses; an int limit adds one `?` and one argument, a
      pair adds `?, ?` and both its items, anything else that is not None is
      rejected. */
  function FindAllStatement(m: Meta, where: Option<string>, args: Option<seq<Value>>,
                            orderBy: Option<string>, limit: Value): (r: Result<Stmt, QueryError>)
    ensures r.Failure? <==> !ValidLimit(limit)
    ensures r.Failure? ==> r.error == InvalidLimit(limit)
    ensures r.Success? ==> r.value.sql == FindAllSql(m.select, where, orderBy, limit)
    ensures r.Success? ==> |Db.ArgsOrEmpty(args)| <= |r.value.args| && r.value.args[..|Db.ArgsOrEmpty(args)|] == Db.ArgsOrEmpty(args)
    ensures r.Success? && limit == VNone ==> r.value.args == Db.ArgsOrEmpty(args)
    ensures r.Success? && AsInt(limit).Some? ==> r.value.args == Db.ArgsOrEmpty(args) + [limit]
    ensures r.Success? && limit.VTuple? ==> r.value.args == Db.ArgsOrEmpty(args) + limit.items
  {
    if !ValidLimit(limit) then Failure(InvalidLimit(limit))
    else
      var base := Db.ArgsOrEmpty(args);
      assert (base + LimitArgs(limit))[..|base|] == base;
      Success(Stmt(FindAllSql(m.select, where, orderBy, limit), base + LimitArgs(limit)))
  }

  /** The clause text each option contributes, stated independently of the
      list-and-join construction. */
  function WhereClause(where: Option<string>): string {
    if Truthy(where) then " where " + where.value else ""
  }

  function OrderClause(orderBy: Option<string>): string {
    if Truthy(orderBy) then " order by " + orderBy.value else ""
  }

  function LimitClause(limit: Value): string {
    if limit == VNone then ""
    else if AsInt(limit).Some? then " limit ?"
    else " limit ?, ?"
  }

  lemma PrefixedPair(a: string, b: string)
    ensures Prefixed(" ", [a, b]) == " " + a + " " + b
  {
    assert [a, b][1..] == [b];
    assert [b][1..] == [];
    assert Prefixed(" ", [b]) == " " + b;
  }

  lemma WhereText(where: Option<string>)
    ensures Prefixed(" ", WhereParts(where)) == WhereClause(where)
  {
    if Truthy(where) { PrefixedPair("where", where.value); }
  }

  lemma OrderText(orderBy: Option<string>)
    ensures Prefixed(" ", OrderParts(orderBy)) == OrderClause(orderBy)
  {
    if Truthy(orderBy) { PrefixedPair("order by", orderBy.value); }
  }

  lemma LimitText(limit: Value)
    ensures Prefixed(" ", LimitParts(limit)) == LimitClause(limit)
  {
    if limit != VNone {
      if AsInt(limit).Some? { PrefixedPair("limit", "?"); } else { PrefixedPair("limit", "?, ?"); }
    }
  }

  /** `where` and `order by` appear only when truthy, in that order, followed
      by the limit clause. */
  lemma FindAllText(select: string, where: Option<string>, orderBy: Option<string>, limit: Value)
    ensures FindAllSql(select, where, orderBy, limit)
      == select + WhereClause(where) + OrderClause(orderBy) + LimitClause(limit)
  {
    JoinParts(" ", select, WhereParts(where), OrderParts(orderBy), LimitParts(limit));
    WhereText(where);
    OrderText(orderBy);
    LimitText(limit);
  }


  /** One placeholder per character `?`, none in the keyword. */
  lemma PlaceholderCount(tail: string, n: nat)
    requires Count('?', tail) == n
    ensures Count('?', " limit " + tail) == n
  {
    var kw := " limit ";
    assert '?' !in kw;
    CountZero('?', kw);
    CountAppend('?', kw, tail);
  }

  lemma LimitCount(limit: Value)
    requires ValidLimit(limit)
    ensures Count('?', LimitClause(limit)) == |LimitArgs(limit)|
  {
    if limit != VNone {
      if AsInt(limit).Some? {
        assert Count('?', "?") == 1;
        PlaceholderCount("?", 1);
        assert " limit " + "?" == " limit ?";
      } else {
        assert Count('?', "?, ?") == 2 by {
          CountAppend('?', "?", ", ?");
          assert "?" + ", ?" == "?, ?";
          assert Count('?', ", ?") == 1;
        }
        PlaceholderCount("?, ?", 2);
        assert " limit " + "?, ?" == " limit ?, ?";
      }
    }
  }

  /** When the caller's `where`/`order by` text carries one placeholder per
      caller argument, the whole `findAll` statement is balanced. */
  lemma FindAllBalanced(m: Meta, where: Option<string>, args: Option<seq<Value>>, orderBy: Option<string>, limit: Value)
    requires ValidMeta(m) && PlainNames(m)
    requires ValidLimit(limit)
    requires Count('?', WhereClause(where)) + Count('?', OrderClause(orderBy)) == |Db.ArgsOrEmpty(args)|
    ensures FindAllStatement(m, where, args, orderBy, limit).Success?
    ensures Balanced(FindAllStatement(m, where, args, orderBy, limit).value)
  {
    FindAllText(m.select, where, orderBy, limit);
    SelectHasNoPlaceholder(m);
    LimitCount(limit);
    var a := m.select;
    var b := WhereClause(where);
    var c := OrderClause(orderBy);
    var d := LimitClause(limit);
    CountFour('?', a, b, c, d);
  }

  /** `find(pk)`: the canned SELECT restricted to the key, one argument. */
  function FindStatement(m: Meta, pk: Value): (s: Stmt)
    ensures s.args == [pk]
    ensures StartsWith(s.sql, m.select) && s.sql[|m.select|..] == " where " + Quote(m.primaryKey) + "=?"
  {
    Stmt(m.select + " where " + Quote(m.primaryKey) + "=?", [pk])
  }

  lemma FindBalanced(m: Meta, pk: Value)
    requires ValidMeta(m) && PlainNames(m)
    ensures Balanced(FindStatement(m, pk))
  {
    var tail := " where " + Quote(m.primaryKey);
    SelectHasNoPlaceholder(m);
    CountZero('?', tail);
    assert Count('?', "=?") == 1;
    assert FindStatement(m, pk).sql == m.select + tail + "=?";
    CountAppend('?', m.select + tail, "=?");
    CountAppend('?', m.select, tail);
  }

  /** `findNumber(selectField, where, args)`: `select <expr> __num__ from
      `table`` plus the optional `where`, with the caller's arguments. */
  function FindNumberStatement(m: Meta, selectField: string, where: Option<string>, args: Option<seq<Value>>): (s: Stmt)
    ensures s.args == Db.ArgsOrEmpty(args)
    ensures StartsWith(s.sql, "select " + selectField + " __num__ from " + Quote(m.table))
    ensures s.sql == "select " + selectField + " __num__ from " + Quote(m.table) + WhereClause(where)
  {
    var head := "select " + selectField + " __num__ from " + Quote(m.table);
    JoinCons(" ", head, WhereParts(where));
    WhereText(where);
    Stmt(Join(" ", [head] + WhereParts(where)), Db.ArgsOrEmpty(args))
  }

  /** A `findNumber` whose `where` text carries one `?` per argument is
      balanced, provided the selected expression and the table name carry none. */
  lemma FindNumberBalanced(m: Meta, selectField: string, where: Option<string>, args: Option<seq<Value>>)
    requires '?' !in selectField && '?' !in m.table
    requires Count('?', WhereClause(where)) == |Db.ArgsOrEmpty(args)|
    ensures Balanced(FindNumberStatement(m, selectField, where, args))
  {
    var head := "select " + selectField + " __num__ from " + Quote(m.table);
    assert '?' !in head by {
      forall i | 0 <= i < |head| ensures head[i] != '?' {
        if 7 <= i < 7 + |selectField| {
          assert head[i] == selectField[i - 7];
        } else if 7 + |selectField| + 15 <= i < |head| - 1 {
          assert head[i] == m.table[i - 7 - |selectField| - 15];
        }
      }
    }
    CountZero('?', head);
    CountAppend('?', head, WhereClause(where));
    assert FindNumberStatement(m, selectField, where, args).sql == head + WhereClause(where);
  }

  // ---------------------------------------------------------------------------
  // Operations against the abstract driver

  /** `find(pk)`: at most one row is fetched; no row is "not found", not an error. */
  function Find(m: Meta, pk: Value, driverRows: seq<Db.Row>): (r: (Db.Sent, Option<Record>))
    ensures r.0 == Db.Prepare(FindStatement(m, pk).sql, Some([pk]))
    ensures r.1.None? <==> |driverRows| == 0
    ensures r.1.Some? ==> r.1.value == driverRows[0]
  {
    var s := FindStatement(m, pk);
    var sel := Db.Select(s.sql, Some(s.args), Some(1), driverRows);
    (sel.sent, if |sel.rows| == 0 then None else Some(sel.rows[0]))
  }

  /** `findNumber`: None on no row, otherwise the row's `__num__` column. */
  function FindNumber(m: Meta, selectField: string, where: Option<string>, args: Option<seq<Value>>,
                      driverRows: seq<Db.Row>): (r: (Db.Sent, Result<Option<Value>, QueryError>))
    ensures r.0 == Db.Prepare(FindNumberStatement(m, selectField, where, args).sql, args)
    ensures r.0.args == Db.ArgsOrEmpty(args)
    ensures |driverRows| == 0 ==> r.1 == Success(None)
    ensures |driverRows| > 0 && "__num__" in driverRows[0] ==> r.1 == Success(Some(driverRows[0]["__num__"]))
    ensures |driverRows| > 0 && "__num__" !in driverRows[0] ==> r.1 == Failure(MissingColumn("__num__"))
  {
    var s := FindNumberStatement(m, selectField, where, args);
    var sel := Db.Select(s.sql, args, Some(1), driverRows);
    (sel.sent,
     if |sel.rows| == 0 then Success(None)
     else if "__num__" in sel.rows[0] then Success(Some(sel.rows[0]["__num__"]))
     else Failure(MissingColumn("__num__")))
  }

  /** `findAll`: every row the driver returns becomes an instance. */
  function FindAll(m: Meta, where: Option<string>, args: Option<seq<Value>>, orderBy: Option<string>,
                   limit: Value, driverRows: seq<Db.Row>): (r: Result<(Db.Sent, seq<Record>), QueryError>)
    ensures r.Success? <==> FindAllStatement(m, where, args, orderBy, limit).Success?
    ensures r.Success? ==> r.value.1 == driverRows
    ensures r.Success? ==> r.value.0.args == FindAllStatement(m, where, args, orderBy, limit).value.args
    ensures r.Success? ==>
      r.value.0 == Db.Prepare(FindAllSql(m.select, where, orderBy, limit), Some(FindAllStatement(m, where, args, orderBy, limit).value.args))
  {
    var s :- FindAllStatement(m, where, args, orderBy, limit);
    var sel := Db.Select(s.sql, Some(s.args), None, driverRows);
    Success((sel.sent, sel.rows))
  }

  /** `save()`: INSERT under autocommit, so no transaction calls; the record
      keeps the defaults it resolved. A row count other than 1 only logs. */
  function Save(m: Meta, rec: Record, d: Db.Driver): (r: (seq<Db.Event>, Db.Outcome, Record))
    requires ValidMeta(m)
    ensures Db.Bracketed(r.0)
    ensures Db.Begin !in r.0 && Db.Commit !in r.0 && Db.Rollback !in r.0
    ensures Db.Run(Db.Prepare(m.insert, Some(SaveStatement(m, rec).0.args))) in r.0
    ensures r.0 == [Db.Acquire, Db.Run(Db.Prepare(m.insert, Some(SaveStatement(m, rec).0.args))), Db.Release]
    ensures r.1.Affected? <==> d.run.RowCount?
    ensures d.run.RowCount? ==> r.1 == Db.Affected(d.run.count)
    ensures d.run.RunFails? ==> r.1 == Db.Raised(d.run.reason)
    ensures r.2 == SaveStatement(m, rec).1
  {
    var (s, after) := SaveStatement(m, rec);
    var (trace, outcome) := Db.Execute(s.sql, Some(s.args), true, d);
    (trace, outcome, after)
  }

  /** `update()`: UPDATE by key under autocommit. */
  function Update(m: Meta, rec: Record, d: Db.Driver): (r: (seq<Db.Event>, Db.Outcome))
    ensures Db.Bracketed(r.0)
    ensures Db.Begin !in r.0 && Db.Commit !in r.0 && Db.Rollback !in r.0
    ensures Db.Run(Db.Prepare(m.update, Some(UpdateStatement(m, rec).args))) in r.0
    ensures r.0 == [Db.Acquire, Db.Run(Db.Prepare(m.update, Some(UpdateStatement(m, rec).args))), Db.Release]
    ensures r.1.Affected? <==> d.run.RowCount?
    ensures d.run.RowCount? ==> r.1 == Db.Affected(d.run.count)
    ensures d.run.RunFails? ==> r.1 == Db.Raised(d.run.reason)
  {
    var s := UpdateStatement(m, rec);
    Db.Execute(s.sql, Some(s.args), true, d)
  }

  /** `remove()`: DELETE by key under autocommit. */
  function Remove(m: Meta, rec: Record, d: Db.Driver): (r: (seq<Db.Event>, Db.Outcome))
    ensures Db.Bracketed(r.0)
    ensures Db.Begin !in r.0 && Db.Commit !in r.0 && Db.Rollback !in r.0
    ensures Db.Run(Db.Prepare(m.delete, Some([GetValue(rec, m.primaryKey)]))) in r.0
    ensures r.0 == [Db.Acquire, Db.Run(Db.Prepare(m.delete, Some([GetValue(rec, m.primaryKey)]))), Db.Release]
    ensures r.1.Affected? <==> d.run.RowCount?
    ensures d.run.RowCount? ==> r.1 == Db.Affected(d.run.count)
    ensures d.run.RunFails? ==> r.1 == Db.Raised(d.run.reason)
  {
    var s := RemoveStatement(m, rec);
    Db.Execute(s.sql, Some(s.args), true, d)
  }
}

=== FILE: orm_schema.dfy ===
/** Column descriptors and the class-definition step of the ORM (www/orm.py,
    `create_args_string`, `Field` and its subclasses, `ModelMetaclass.__new__`):
    from the attributes declared on an entity class, derive its table name,
    its single primary key, the ordered non-key fields and the canned
    SELECT/INSERT/UPDATE/DELETE statements. */
module OrmSchema {
  import opened Wrappers
  import opened Values
  import opened Strings

  // ---------------------------------------------------------------------------
  // Placeholder lists

  /** `create_args_string(num)`: `num` question marks joined by ", ". */
  function CreateArgsString(num: nat): (r: string)
    ensures r == "" <==> num == 0
    ensures |r| == if num == 0 then 0 else 3 * num - 2
    ensures forall i :: 0 <= i < |r| ==> r[i] == (if i % 3 == 0 then '?' else if i % 3 == 1 then ',' else ' ')
    ensures Count('?', r) == num
  {
    ArgsStringShape(num);
    CountJoin('?', ", ", seq(num, _ => "?"));
    SumCountsMarks(num);
    Join(", ", seq(num, _ => "?"))
  }

  lemma {:induction false} ArgsStringShape(num: nat)
    ensures var r := Join(", ", seq(num, _ => "?"));
      && |r| == (if num == 0 then 0 else 3 * num - 2)
      && forall i :: 0 <= i < |r| ==> r[i] == (if i % 3 == 0 then '?' else if i % 3 == 1 then ',' else ' ')
  {
    if num >= 2 {
      var xs := seq(num, _ => "?");
      assert xs[1..] == seq(num - 1, _ => "?");
      ArgsStringShape(num - 1);
      var rest := Join(", ", xs[1..]);
      var r := Join(", ", xs);
      assert r == "?, " + rest;
      forall i | 0 <= i < |r|
        ensures r[i] == (if i % 3 == 0 then '?' else if i % 3 == 1 then ',' else ' ')
      {
        if i >= 3 {
          assert r[i] == rest[i - 3];
        }
      }
    }
  }

  lemma {:induction false} SumCountsMarks(num: nat)
    ensures SumCounts('?', seq(num, _ => "?")) == num
  {
    if num > 0 {
      var xs := seq(num, _ => "?");
      assert xs[1..] == seq(num - 1, _ => "?");
      SumCountsMarks(num - 1);
    }
  }

  // ---------------------------------------------------------------------------
  // Fields

  /** A field default: a plain value (`Given(VNone)` is "no default") or a
      callable, represented by the value calling it yields. */
  datatype Default = Given(v: Value) | Producer(produces: Value)

  /** `field.default is not None`. */
  predicate HasDefault(d: Default) {
    d != Given(VNone)
  }

  /** `field.default() if callable(field.default) else field.default`. */
  function DefaultValue(d: Default): Value {
    match d
    case Given(v) => v
    case Producer(p) => p
  }

  /** `Field(name, column_type, primary_key, default)`. */
  datatype Field = Field(name: Option<string>, columnType: string, primaryKey: bool, default: Default)

  function StringField(name: Option<string> := None, primaryKey: bool := false,
                       default: Default := Given(VNone), ddl: string := "varchar(100)"): Field {
    Field(name, ddl, primaryKey, default)
  }

  function BooleanField(name: Option<string> := None, default: Default := Given(VBool(false))): Field {
    Field(name, "boolean", false, default)
  }

  function IntegerField(name: Option<string> := None, primaryKey: bool := false,
                        default: Default := Given(VInt(0))): Field {
    Field(name, "bigint", primaryKey, default)
  }

  function FloatField(name: Option<string> := None, primaryKey: bool := false,
                      default: Default := Given(VReal(0.0))): Field {
    Field(name, "real", primaryKey, default)
  }

  function TextField(name: Option<string> := None, default: Default := Given(VNone)): Field {
    Field(name, "text", false, default)
  }

  /** Each field kind fixes its column type; only string, integer and float
      fields can be primary keys; name and default are carried unchanged. */
  lemma FieldKinds(name: Option<string>, pk: bool, d: Default, ddl: string)
    ensures StringField(name, pk, d, ddl) == Field(name, ddl, pk, d)
    ensures StringField().columnType == "varchar(100)" && !StringField().primaryKey && !HasDefault(StringField().default)
    ensures BooleanField(name, d) == Field(name, "boolean", false, d)
    ensures BooleanField().default == Given(VBool(false))
    ensures IntegerField(name, pk, d) == Field(name, "bigint", pk, d)
    ensures IntegerField().default == Given(VInt(0))
    ensures FloatField(name, pk, d) == Field(name, "real", pk, d)
    ensures FloatField().default == Given(VReal(0.0))
    ensures TextField(name, d) == Field(name, "text", false, d)
    ensures !HasDefault(TextField().default)
  {
  }

  // ---------------------------------------------------------------------------
  // Class declarations

  /** A class attribute: a `Field` or anything else. */
  datatype Attr = FieldAttr(field: Field) | OtherAttr(v: Value)

  /** A class statement: its name, its `__table__` attribute if present, and
      its other attributes in declaration order. */
  datatype ClassDecl = ClassDecl(name: string, table: Option<string>, attrs: seq<(string, Attr)>)

  /** A class namespace is a dict keyed by identifiers: distinct, non-empty names. */
  predicate WellFormedAttrs(attrs: seq<(string, Attr)>) {
    && (forall i, j :: 0 <= i < j < |attrs| ==> attrs[i].0 != attrs[j].0)
    && (forall i :: 0 <= i < |attrs| ==> attrs[i].0 != "")
  }

  /** `attrs.get('__table__', None) or name`. */
  function TableName(decl: ClassDecl): (t: string)
    ensures decl.table.None? ==> t == decl.name
    ensures decl.table.Some? && decl.table.value != "" ==> t == decl.table.value
    ensures decl.table == Some("") ==> t == decl.name
  {
    if decl.table.Some? && decl.table.value != "" then decl.table.value else decl.name
  }

  /** Names of the declared fields whose primary-key flag equals `key`, in
      declaration order: the key candidates (`key`) or `__fields__` (`!key`). */
  function FieldNames(attrs: seq<(string, Attr)>, key: bool): (r: seq<string>)
    ensures forall x :: x in r ==> x in FieldMap(attrs)
  {
    if |attrs| == 0 then []
    else
      var (k, v) := attrs[|attrs| - 1];
      FieldNames(attrs[..|attrs| - 1], key) + (if v.FieldAttr? && v.field.primaryKey == key then [k] else [])
  }

  /** `__mappings__`: every declared field by attribute name. */
  function FieldMap(attrs: seq<(string, Attr)>): map<string, Field> {
    if |attrs| == 0 then map[]
    else
      var (k, v) := attrs[|attrs| - 1];
      var m := FieldMap(attrs[..|attrs| - 1]);
      if v.FieldAttr? then m[k := v.field] else m
  }

  predicate Distinct(xs: seq<string>) {
    forall i, j :: 0 <= i < j < |xs| ==> xs[i] != xs[j]
  }

  /** A prefix of the declarations contributes a prefix of the names. */
  lemma {:induction false} FieldNamesPrefix(attrs: seq<(string, Attr)>, j: nat, key: bool)
    requires j <= |attrs|
    ensures var p := FieldNames(attrs[..j], key);
      |p| <= |FieldNames(attrs, key)| && FieldNames(attrs, key)[..|p|] == p
  {
    if j < |attrs| {
      var init := attrs[..|attrs| - 1];
      assert init[..j] == attrs[..j];
      FieldNamesPrefix(init, j, key);
    } else {
      assert attrs[..j] == attrs;
    }
  }

  /** The field names are exactly the mapped attributes with that key flag,
      each once. */
  lemma {:induction false} FieldNamesMembership(attrs: seq<(string, Attr)>, key: bool)
    requires WellFormedAttrs(attrs)
    ensures forall x :: x in FieldNames(attrs, key) <==> x in FieldMap(attrs) && FieldMap(attrs)[x].primaryKey == key
    ensures Distinct(FieldNames(attrs, key))
    ensures forall x :: x in FieldMap(attrs) ==> exists i :: 0 <= i < |attrs| && attrs[i].0 == x
  {
    if |attrs| > 0 {
      var init := attrs[..|attrs| - 1];
      var (k, v) := attrs[|attrs| - 1];
      FieldNamesMembership(init, key);
      var fs := FieldNames(init, key);
      assert FieldMap(attrs) == if v.FieldAttr? then FieldMap(init)[k := v.field] else FieldMap(init);
      forall x | x in FieldMap(init) ensures x != k {
        var i :| 0 <= i < |init| && init[i].0 == x;
        assert attrs[i].0 == x;
      }
      if v.FieldAttr? && v.field.primaryKey == key {
        var xs := FieldNames(attrs, key);
        assert xs == fs + [k];
        assert k !in fs;
        forall i, j | 0 <= i < j < |xs| ensures xs[i] != xs[j] {
          if j == |fs| {
            assert xs[i] == fs[i];
          }
        }
      }
      forall x | x in FieldMap(attrs) ensures exists i :: 0 <= i < |attrs| && attrs[i].0 == x {
        if x == k {
          assert attrs[|attrs| - 1].0 == x;
        } else {
          assert x in FieldMap(init);
          var i :| 0 <= i < |init| && init[i].0 == x;
          assert attrs[i].0 == x;
        }
      }
    }
  }

  // ---------------------------------------------------------------------------
  // Canned SQL

  /** A backquoted identifier. */
  function Quote(s: string): string {
    "`" + s + "`"
  }

  function QuoteAll(xs: seq<string>): (r: seq<string>)
    ensures |r| == |xs| && forall i :: 0 <= i < |xs| ==> r[i] == Quote(xs[i])
  {
    if |xs| == 0 then [] else [Quote(xs[0])] + QuoteAll(xs[1..])
  }

  /** `mappings.get(f).name or f`: the column an attribute is stored in. */
  function ColumnName(mappings: map<string, Field>, f: string): string
    requires f in mappings
  {
    var n := mappings[f].name;
    if n.Some? && n.value != "" then n.value else f
  }

  /** One "`column`=?" assignment per non-key field. */
  function SetClauses(mappings: map<string, Field>, fields: seq<string>): (r: seq<string>)
    requires forall f :: f in fields ==> f in mappings
    ensures |r| == |fields|
    ensures forall i :: 0 <= i < |fields| ==> r[i] == Quote(ColumnName(mappings, fields[i])) + "=?"
  {
    if |fields| == 0 then [] else [Quote(ColumnName(mappings, fields[0])) + "=?"] + SetClauses(mappings, fields[1..])
  }

  function SelectSql(table: string, pk: string, fields: seq<string>): string {
    "select " + Quote(pk) + ", " + Join(", ", QuoteAll(fields)) + " from " + Quote(table)
  }

  function InsertHead(table: string, pk: string, fields: seq<string>): string {
    "insert into " + Quote(table) + " (" + Join(", ", QuoteAll(fields)) + ", " + Quote(pk) + ") values ("
  }

  function InsertSql(table: string, pk: string, fields: seq<string>): string {
    InsertHead(table, pk, fields) + CreateArgsString(|fields| + 1) + ")"
  }

  function UpdateSql(table: string, mappings: map<string, Field>, pk: string, fields: seq<string>): string
    requires forall f :: f in fields ==> f in mappings
  {
    "update " + Quote(table) + " set " + Join(", ", SetClauses(mappings, fields)) + " where " + Quote(pk) + "=?"
  }

  function DeleteSql(table: string, pk: string): string {
    "delete from " + Quote(table) + " where " + Quote(pk) + "=?"
  }

  // ---------------------------------------------------------------------------
  // Class metadata

  /** The attributes the metaclass installs on an entity class. */
  datatype Meta = Meta(
    table: string,
    mappings: map<string, Field>,
    primaryKey: string,
    fields: seq<string>,
    select: string,
    insert: string,
    update: string,
    delete: string)

  /** What the metaclass returns: the `Model` base class untouched, or an entity. */
  datatype Defined = BaseModel | Entity(meta: Meta)

  datatype DefineError = DuplicatePrimaryKey(field: string) | PrimaryKeyNotFound

  /** The `RuntimeError` message. */
  function ErrorMessage(e: DefineError): string {
    match e
    case DuplicatePrimaryKey(k) => "Duplicate primary key for field: " + k
    case PrimaryKeyNotFound => "Primary key not found."
  }

  function BuildMeta(table: string, mappings: map<string, Field>, pk: string, fields: seq<string>): Meta
    requires forall f :: f in fields ==> f in mappings
  {
    Meta(table, mappings, pk, fields,
         SelectSql(table, pk, fields),
         InsertSql(table, pk, fields),
         UpdateSql(table, mappings, pk, fields),
         DeleteSql(table, pk))
  }

  /** The class invariant every entity's metadata keeps: exactly one mapped
      field is the key, `fields` lists every other mapped field once and
      never the key, and the canned statements are built from them. */
  predicate ValidMeta(m: Meta) {
    && m.primaryKey in m.mappings && m.mappings[m.primaryKey].primaryKey
    && (forall k :: k in m.mappings && m.mappings[k].primaryKey ==> k == m.primaryKey)
    && (forall k :: k in m.fields ==> k in m.mappings)
    && (forall k :: k in m.mappings ==> (k in m.fields <==> !m.mappings[k].primaryKey))
    && Distinct(m.fields)
    && m.select == SelectSql(m.table, m.primaryKey, m.fields)
    && m.insert == InsertSql(m.table, m.primaryKey, m.fields)
    && m.update == UpdateSql(m.table, m.mappings, m.primaryKey, m.fields)
    && m.delete == DeleteSql(m.table, m.primaryKey)
  }

  /** One more declaration extends the field map and the name lists by itself. */
  lemma FieldsStep(attrs: seq<(string, Attr)>, i: nat)
    requires i < |attrs|
    ensures var (k, v) := attrs[i];
      && FieldMap(attrs[..i + 1]) == (if v.FieldAttr? then FieldMap(attrs[..i])[k := v.field] else FieldMap(attrs[..i]))
      && (forall key: bool :: FieldNames(attrs[..i + 1], key) ==
            FieldNames(attrs[..i], key) + (if v.FieldAttr? && v.field.primaryKey == key then [k] else []))
  {
    assert attrs[..i + 1][..i] == attrs[..i];
  }

  /** A second key field found at position `i` is the second key of the whole declaration. */
  lemma SecondKey(attrs: seq<(string, Attr)>, i: nat)
    requires i < |attrs| && attrs[i].1.FieldAttr? && attrs[i].1.field.primaryKey
    requires |FieldNames(attrs[..i], true)| == 1
    ensures |FieldNames(attrs, true)| >= 2 && FieldNames(attrs, true)[1] == attrs[i].0
  {
    FieldsStep(attrs, i);
    FieldNamesPrefix(attrs, i + 1, true);
  }

  /** Metadata built from a single key and the other fields of well-formed
      attributes keeps the class invariant. */
  lemma EntityMetaValid(table: string, attrs: seq<(string, Attr)>)
    requires WellFormedAttrs(attrs)
    requires |FieldNames(attrs, true)| == 1
    ensures ValidMeta(BuildMeta(table, FieldMap(attrs), FieldNames(attrs, true)[0], FieldNames(attrs, false)))
  {
    FieldNamesMembership(attrs, true);
    FieldNamesMembership(attrs, false);
    var keys := FieldNames(attrs, true);
    assert keys[0] in keys;
  }

  /** `ModelMetaclass.__new__`: scans the attributes in order, recording each
      field, failing at the second key, and failing after the scan if there
      was none. */
  method DefineModel(decl: ClassDecl) returns (r: Result<Defined, DefineError>)
    requires WellFormedAttrs(decl.attrs)
    ensures decl.name == "Model" ==> r == Success(BaseModel)
    ensures decl.name != "Model" ==>
      var keys := FieldNames(decl.attrs, true);
      && (r == Failure(PrimaryKeyNotFound) <==> |keys| == 0)
      && (|keys| >= 2 ==> r == Failure(DuplicatePrimaryKey(keys[1])))
      && (r.Success? <==> |keys| == 1)
      && (r.Success? ==> r.value == Entity(BuildMeta(TableName(decl), FieldMap(decl.attrs), keys[0], FieldNames(decl.attrs, false))))
    ensures r.Success? && r.value.Entity? ==> ValidMeta(r.value.meta)
  {
    if decl.name == "Model" {
      return Success(BaseModel);
    }
    var attrs := decl.attrs;
    var mappings: map<string, Field> := map[];
    var fields: seq<string> := [];
    var primaryKey: Option<string> := None;
    for i := 0 to |attrs|
      invariant mappings == FieldMap(attrs[..i])
      invariant fields == FieldNames(attrs[..i], false)
      invariant |FieldNames(attrs[..i], true)| <= 1
      invariant primaryKey.None? <==> |FieldNames(attrs[..i], true)| == 0
      invariant primaryKey.Some? ==> FieldNames(attrs[..i], true) == [primaryKey.value]
    {
      var (k, v) := attrs[i];
      FieldsStep(attrs, i);
      if v.FieldAttr? {
        mappings := mappings[k := v.field];
        if v.field.primaryKey {
          if primaryKey.Some? {
            SecondKey(attrs, i);
            return Failure(DuplicatePrimaryKey(k));
          }
          primaryKey := Some(k);
        } else {
          fields := fields + [k];
        }
      }
    }
    assert attrs[..|attrs|] == attrs;
    if primaryKey.None? {
      return Failure(PrimaryKeyNotFound);
    }
    var pk := primaryKey.value;
    EntityMetaValid(TableName(decl), attrs);
    var meta := BuildMeta(TableName(decl), mappings, pk, fields);
    return Success(Entity(meta));
  }
}

=== FILE: strings.dfy ===
/** String helpers standing in for the Python built-ins the web app leans on:
    `str.join`, `str.startswith`, `str.lower`, `str.count` and `str(int)`. */
module Strings {

  /** `s.startswith(prefix)`. */
  predicate StartsWith(s: string, prefix: string) {
    |prefix| <= |s| && s[..|prefix|] == prefix
  }

  /** `sep.join(xs)`. */
  function Join(sep: string, xs: seq<string>): string {
    if |xs| == 0 then ""
    else if |xs| == 1 then xs[0]
    else xs[0] + sep + Join(sep, xs[1..])
  }

  /** `s.count(c)` for a single character. */
  function Count(c: char, s: string): nat {
    if |s| == 0 then 0
    else (if s[0] == c then 1 else 0) + Count(c, s[1..])
  }

  lemma {:induction false} CountAppend(c: char, a: string, b: string)
    ensures Count(c, a + b) == Count(c, a) + Count(c, b)
  {
    if |a| == 0 {
      assert a + b == b;
    } else {
      assert (a + b)[1..] == a[1..] + b;
      CountAppend(c, a[1..], b);
    }
  }

  lemma CountFour(c: char, a: string, b: string, d: string, e: string)
    ensures Count(c, a + b + d + e) == Count(c, a) + Count(c, b) + Count(c, d) + Count(c, e)
  {
    CountAppend(c, a + b + d, e);
    CountAppend(c, a + b, d);
    CountAppend(c, a, b);
  }

  /** A character is counted zero times exactly when it does not occur. */
  lemma {:induction false} CountZero(c: char, s: string)
    ensures Count(c, s) == 0 <==> c !in s
  {
    if |s| > 0 {
      CountZero(c, s[1..]);
      assert s == [s[0]] + s[1..];
    }
  }

  /** Total number of occurrences of `c` over a list of strings. */
  function SumCounts(c: char, xs: seq<string>): nat {
    if |xs| == 0 then 0 else Count(c, xs[0]) + SumCounts(c, xs[1..])
  }

  /** Joining with a separator free of `c` adds no occurrence of `c`. */
  lemma {:induction false} CountJoin(c: char, sep: string, xs: seq<string>)
    requires c !in sep
    ensures Count(c, Join(sep, xs)) == SumCounts(c, xs)
  {
    if |xs| == 0 {
    } else if |xs| == 1 {
      assert SumCounts(c, xs[1..]) == 0;
    } else {
      CountZero(c, sep);
      CountJoin(c, sep, xs[1..]);
      CountAppend(c, xs[0] + sep, Join(sep, xs[1..]));
      CountAppend(c, xs[0], sep);
    }
  }

  /** A join of pieces free of `c`, with a separator free of `c`, is free of `c`. */
  lemma {:induction false} JoinExcludes(c: char, sep: string, xs: seq<string>)
    requires c !in sep
    requires forall i :: 0 <= i < |xs| ==> c !in xs[i]
    ensures c !in Join(sep, xs)
  {
    if |xs| >= 2 {
      JoinExcludes(c, sep, xs[1..]);
    }
  }

  /** Each piece preceded by the separator, concatenated. */
  function Prefixed(sep: string, xs: seq<string>): string {
    if |xs| == 0 then "" else sep + xs[0] + Prefixed(sep, xs[1..])
  }

  lemma {:induction false} PrefixedAppend(sep: string, xs: seq<string>, ys: seq<string>)
    ensures Prefixed(sep, xs + ys) == Prefixed(sep, xs) + Prefixed(sep, ys)
  {
    if |xs| == 0 {
      assert xs + ys == ys;
    } else {
      assert (xs + ys)[1..] == xs[1..] + ys;
      PrefixedAppend(sep, xs[1..], ys);
    }
  }

  /** Joining a non-empty list: the first piece, then every other piece after a separator. */
  lemma {:induction false} JoinCons(sep: string, a: string, xs: seq<string>)
    ensures Join(sep, [a] + xs) == a + Prefixed(sep, xs)
    decreases |xs|
  {
    if |xs| > 0 {
      assert ([a] + xs)[1..] == xs;
      assert xs == [xs[0]] + xs[1..];
      JoinCons(sep, xs[0], xs[1..]);
    }
  }

  /** Three lists of pieces, each piece after a separator. */
  lemma PrefixedThree(sep: string, w: seq<string>, o: seq<string>, l: seq<string>)
    ensures Prefixed(sep, w + o + l) == Prefixed(sep, w) + Prefixed(sep, o) + Prefixed(sep, l)
  {
    PrefixedAppend(sep, w + o, l);
    PrefixedAppend(sep, w, o);
  }

  /** Joining a head and three lists of pieces. */
  lemma JoinParts(sep: string, head: string, w: seq<string>, o: seq<string>, l: seq<string>)
    ensures Join(sep, [head] + (w + o + l)) == head + Prefixed(sep, w) + Prefixed(sep, o) + Prefixed(sep, l)
  {
    JoinCons(sep, head, w + o + l);
    PrefixedThree(sep, w, o, l);
  }

  /** `s.lower()`, restricted to ASCII letters. */
  function LowerChar(c: char): char {
    if 'A' <= c <= 'Z' then (c as int + 32) as char else c
  }

  function Lower(s: string): (r: string)
    ensures |r| == |s|
    ensures forall i :: 0 <= i < |s| ==> r[i] == LowerChar(s[i])
  {
    if |s| == 0 then "" else [LowerChar(s[0])] + Lower(s[1..])
  }

  predicate IsDigits(s: string) {
    forall i :: 0 <= i < |s| ==> '0' <= s[i] <= '9'
  }

  function DigitChar(d: nat): (c: char)
    requires d < 10
    ensures '0' <= c <= '9' && c as int - '0' as int == d
  {
    (('0' as int) + d) as char
  }

  /** `str(n)` for a non-negative integer: its decimal digits, most significant first. */
  function Decimal(n: nat): (r: string)
    ensures |r| > 0 && IsDigits(r)
    ensures |r| > 1 ==> r[0] != '0'
  {
    if n < 10 then [DigitChar(n)] else Decimal(n / 10) + [DigitChar(n % 10)]
  }

  /** The number a string of decimal digits denotes (`int(s)`). */
  function DecimalValue(s: string): nat
    requires IsDigits(s)
  {
    if |s| == 0 then 0
    else DecimalValue(s[..|s| - 1]) * 10 + (s[|s| - 1] as int - '0' as int)
  }

  /** Reading back what `Decimal` wrote gives the original number. */
  lemma {:induction false} DecimalRoundTrip(n: nat)
    ensures DecimalValue(Decimal(n)) == n
  {
    if n >= 10 {
      var r := Decimal(n);
      assert r[..|r| - 1] == Decimal(n / 10);
      DecimalRoundTrip(n / 10);
    }
  }
}

=== FILE: values.dfy ===
/** The abstract Python/aiohttp objects that flow through the web app: handler
    return values, HTTP responses, the signed-in user and the incoming request.
    Library behaviour (JSON decoding, form decoding, `parse_qs`, `str()` of an
    arbitrary object, template rendering) is not computed: its results are
    carried as given values. */
module Values {

  import opened Wrappers

  /** The user record `cookie2user` yields; only the `admin` flag is consulted. */
  datatype User = User(email: string, admin: bool)

  /** A Python value as far as the web layer distinguishes it. `VBool` is kept
      apart from `VInt` because `isinstance(True, int)` holds in Python, which
      the coercion and limit rules observe. */
  datatype Value =
    | VNone
    | VBool(b: bool)
    | VInt(i: int)
    | VReal(x: real)
    | VStr(s: string)
    | VBytes(bytes: seq<bv8>)
    | VTuple(items: seq<Value>)
    | VList(items: seq<Value>)
    | VDict(entries: map<string, Value>)
    | VUser(user: User)
    | VRequest                  // the request object handed to the handler
    | VResponse(response: Response)
    | VObject(id: nat)          // any other object, known only by identity

  /** The responses the app builds. `PlainText` and `StatusText` carry the
      value whose `str()` becomes the body, since `str()` is not modelled. */
  datatype Response =
    | Redirect(location: string)                           // HTTPFound (302)
    | BadRequest(text: string)                             // HTTPBadRequest (400)
    | Binary(body: seq<bv8>)
    | Html(text: string)
    | Json(payload: map<string, Value>)
    | Rendered(template: Value, context: map<string, Value>)
    | Status(code: int)
    | StatusText(code: int, message: Value)
    | PlainText(shown: Value)
    | Prebuilt(id: nat)                                    // a response the handler built itself

  /** The `Content-Type` header set on each kind of body response. */
  function ContentType(r: Response): string {
    match r
    case Binary(_) => "application/octet-stream"
    case Html(_) => "text/html;charset=utf-8"
    case Rendered(_, _) => "text/html;charset=utf-8"
    case Json(_) => "application/json;charset=utf-8"
    case PlainText(_) => "text/plain;charset=utf-8"
    case _ => ""
  }

  /** The integer a value denotes for `isinstance(v, int)`, booleans included. */
  function AsInt(v: Value): (r: Option<int>)
    ensures r.Some? <==> v.VInt? || v.VBool?
    ensures v.VInt? ==> r == Some(v.i)
    ensures v.VBool? ==> r == Some(if v.b then 1 else 0)
  {
    match v
    case VInt(i) => Some(i)
    case VBool(b) => Some(if b then 1 else 0)
    case _ => None
  }

  /** The non-empty value list `parse_qs` gives for one query key. */
  type QueryValues = s: seq<string> | |s| > 0 witness [""]

  /** An incoming request as the middlewares and the handler adapter read it.
      `contentType` is "" when the header is absent; `jsonBody`, `formBody` and
      `query` are what `request.json()`, `request.post()` and
      `parse.parse_qs(query_string, True)` return. */
  datatype Request = Request(
    verb: string,               // request.method
    path: string,
    contentType: string,
    jsonBody: Value,
    formBody: map<string, Value>,
    queryString: string,
    query: map<string, QueryValues>,
    matchInfo: map<string, string>,
    cookie: Option<string>)
}

=== FILE: wrappers.dfy ===
/** Failure-compatible wrappers used across the model: `Option` for Python's
    "value or None" and `Result` for "value or raised exception". */
module Wrappers {

  datatype Option<+T> = None | Some(value: T) {
    function GetOr(default: T): T {
      match this
      case Some(v) => v
      case None => default
    }
  }

  datatype Result<+R, +E> = Success(value: R) | Failure(error: E) {
    predicate IsFailure() {
      Failure?
    }

    function PropagateFailure<U>(): Result<U, E>
      requires Failure?
    {
      Failure(error)
    }

    function Extract(): R
      requires Success?
    {
      value
    }
  }
}
